=== FILE: README.md ===
# School tech-team app: route-handler core in Dafny

This project models the decision logic of the Express route handlers of a
multi-tenant school application. Schools are the tenants. The application runs
device-check and repair tickets and tracks students' learning challenges. Its
users are super admins, school admins and students.

The storage layer is replaced by immutable sequences of records. Each handler
becomes a pure function from the records and the request to a reply. A handler
that writes also returns the new store. The modelled handlers are:

- **Login** (`Login.HandleLogin`): issues a session or gives one uniform 401.
- **Student-scoped admin endpoints** (`Students`): update, reset-password and
  details. Each checks that the addressed student belongs to the school in the
  path. The update strips the privileged columns from its body. Details tallies
  the student's device checks and repairs by status.
- **Ticket creation** (`Tickets`): normalises the body before it is stored.
- **Skills progress** (`Skills`): groups challenges per category and computes
  rounded completion percentages.
- **Rankings** (`Rankings`): orders a school's students by points.
- **Middleware chain** (`Http.Answer`, `Http.Route`): the guards run before each
  guarded handler. These are the three student-scoped routes and the `requireAuth`
  routes for tickets, skills progress and rankings. Login has no guard.

The authentication module (`./auth`) is not part of this model, so its
functions stay abstract. The model defines no semantics for them:
- Each guard (`requireAuth`, `requireAdminOrSuperAdmin`, `requireSchoolContext`)
  becomes the verdict it reached for a request.
- `verifyPassword` and `hashPassword` are function-valued parameters.
- The random token from `createSession` is a parameter.

The ticket-creation body and ticket rows are JSON objects (`map<string, Json>`).
This models that handler's object spread and `||` defaulting, including
JavaScript truthiness. The other request bodies come in already decoded:
- the login body as parsed credentials;
- the update body as a typed patch of the users table's columns;
- the reset body as an optional string `newPassword`.

User rows are a typed record of the users table's columns.

The route module imports `revokeAllUserSessions` (server/routes.ts:8) but never
calls it. In particular, neither the password reset nor a deactivating update
revokes sessions. The model follows the code: both leave the session table
unchanged, and their contracts say so.

The three student-scoped handlers take the membership test as a parameter
(`Students.Membership`):
- `SchoolOnly` is the test as written. The addressed user must exist and belong
  to the path's school.
- `StudentsOnly` also requires the user to have the student role, as the routes
  evidently intend (see Findings).

Every contract of these handlers holds under either test.

Modules and files:
- `wrappers.dfy`: `Option` and `Result`.
- `json.dfy`: JSON values and truthiness.
- `seqs.dfy`: `filter` and counting.
- `records.dfy`: rows and lookups.
- `http.dfy`: replies and the guard chain.
- `login.dfy`
- `students.dfy`
- `tickets.dfy`
- `skills.dfy`
- `rankings.dfy`
- `flows.dfy`: properties that span two handlers.

## Model

| member | source | states |
|---|---|---|
| Records.FirstWhere | server/routes.ts:457 | Returns a row that satisfies the condition, or nothing exactly when no row does. Both user lookups are instances of it. |
| Records.FirstWhereFindsTheOnlyMatch | server/routes.ts:457 | When exactly one stored row satisfies the condition, the lookup returns that row. |
| Records.UserByUsername | server/routes.ts:38 | The lookup returns a row that has the requested username. It returns nothing exactly when no row has that username. |
| Records.UsernameLookupFindsTheRow | server/routes.ts:38 | If usernames are unique, looking up any stored user's username returns that user. |
| Records.UserById | server/routes.ts:457 | The lookup returns a row that has the requested id. It returns nothing exactly when no row has that id. |
| Records.IdLookupFindsTheRow | server/routes.ts:457 | If ids are unique, looking up any stored user's id returns that user. |
| Http.FirstHalt | server/routes.ts:451 | Returns the position of the first guard that answered the request, with every earlier guard having called `next()`. Returns nothing exactly when every guard called `next()`. |
| Http.Answer | server/routes.ts:451 | If every guard calls `next()`, the handler's reply stands. Otherwise the first halting guard's status and message are the reply. |
| Http.Route | server/routes.ts:451 | If every guard calls `next()`, the handler's reply and store stand. Otherwise the first halting guard answers and the store is unchanged. |
| Login.HandleLogin | server/routes.ts:28-64 | A session is appended exactly when the named user exists, is active and the password verifies. The session is for that user, with the client's address and user agent. The reply carries only id, username, email and role. An invalid body gives 400. Every rejected credential gives the same 401 "Invalid credentials", and the store is unchanged. |
| Login.LoginSucceedsIff | server/routes.ts:38-54 | If usernames are unique, a login succeeds if and only if some stored user has the name, is active, and its hash verifies the password. That user's summary is returned and that user's session is added. |
| Login.RejectionsAreUniform | server/routes.ts:39-47 | Any two rejected logins give identical replies and leave the store identical. It does not matter whether the user was unknown, inactive or gave a wrong password. |
| Students.AdminPassesMembershipAsWritten | server/routes.ts:456-460 | The written membership test (`MemberAsWritten`: the user exists and its school is the path's) admits an admin of the path's school, who is not a student. |
| Students.Sanitize | server/routes.ts:462-466 | The stripped body no longer names id, password hash, school or role. It names every other column exactly as the original body did. |
| Students.SanitizedPatchKeepsPrivileges | server/routes.ts:462-469 | Applying a stripped update body never changes id, password hash, school or role. Every other column takes the body's value if one was supplied, and keeps its old value otherwise. |
| Students.SanitizeIdempotent | server/routes.ts:463-466 | Stripping the privileged columns twice gives the same body as stripping them once. |
| Students.UpdateRows | server/routes.ts:469 | The update changes exactly the rows with the student's id, and leaves every other row as it was. |
| Students.UpdatedRowIsFound | server/routes.ts:469-470 | With unique ids and a body that leaves ids alone, ids stay unique after the update. Looking up the student's id then finds the updated row. |
| Students.UpdateStudent | server/routes.ts:453-470 | Returns 404 with no change exactly when the addressed user fails the membership test. Otherwise only that user's row changes: it keeps its privileged columns, the other supplied columns are applied, and the new row is returned. With unique ids, the returned row is what the table now holds for that id. Tickets and sessions are unchanged. |
| Students.AdminUpdatedAsWritten | server/routes.ts:456-470 | With the written test, an update addressed to an admin of the path's school succeeds. With the intended test, the same request gets 404 and changes nothing. |
| Students.UpdateStudentRoute | server/routes.ts:451-460 | When every guard calls `next()`, the reply and store are the update handler's. When a guard halts, the reply is the first halting guard's status and message, and the store is unchanged. The store changes only if every guard passed and the addressed user passed the membership test. |
| Students.ResetPasswordAsWritten | server/routes.ts:478-502 | The handler as written never changes the store. A missing or empty new password gives 400. A user who fails the written membership test gives 404. Every other request gives 500 "Failed to reset password". |
| Students.ResetAsWrittenNeverResets | server/routes.ts:493-497 | A valid reset of an existing student's password gets a 500 reply, and the stored hash stays the old one. |
| Students.ResetPassword | server/routes.ts:480-497 | The corrected handler gives 400 for a missing or empty password. It gives 404 when the addressed user fails the membership test. Otherwise it sets exactly that user's password hash to the hash of the new password and replies 200. Nothing else changes, and sessions are not revoked. |
| Students.ResetPasswordRoute | server/routes.ts:478 | When every guard calls `next()`, the reply and store are the reset handler's. When a guard halts, the reply is the first halting guard's status and message, and the store is unchanged. The store changes only if every guard passed, a new password was given and the addressed user passed the membership test. |
| Students.StatusCount | server/routes.ts:544-546 | The number of tickets with a given status is the number of positions in the group holding one. |
| Students.TallyOf | server/routes.ts:542-555 | A group's total is its size. Its completed, in-progress and pending counts are the numbers of its tickets with status `completed`, `in_progress` and `pending`. Together they never exceed the total. |
| Students.KindGroup | server/routes.ts:516-521 | Filtering the school's tickets to those assigned to the student, then by issue type, gives the single combined filter. The result holds each such ticket as many times as the school list does, and nothing else. |
| Students.KindGroupsSplit | server/routes.ts:520-521 | A student's check and repair groups share no ticket, and together they are no larger than the student's tickets. |
| Students.StudentDetails | server/routes.ts:507-564 | Returns 404 exactly when the addressed user fails the membership test. Otherwise the student view holds the stored row's id, username, email, names, points, streak, role, avatar and creation time. Device checks are exactly the school's tickets assigned to the student with type `check`, in list order. Repairs are the same with type `repair`. Each group is tallied as `TallyOf` states: total = size, and each status count = the number of its tickets with that status. The two groups are disjoint and together no larger than the student's assigned tickets. The reply carries the fetched completions and work logs themselves, with their lengths as totals. |
| Students.AdminDetailsAsWritten | server/routes.ts:510-513 | With the written test, an admin of the path's school gets a details page. With the intended test, the same request gets 404. |
| Students.StudentDetailsRoute | server/routes.ts:505 | When every guard calls `next()`, the reply is the details handler's. When a guard halts, the reply is the first halting guard's status and message. A details page is returned only if every guard passed and the addressed user passed the membership test. |
| Seqs.Filter | server/routes.ts:517 | The result holds exactly the elements that satisfy the predicate, each as many times as the input does. (`FilterConcat` fixes the order.) |
| Seqs.FilterConcat | server/routes.ts:517 | Filtering a concatenation is concatenating the filtered parts, so the kept elements stay in input order. |
| Seqs.FilterAnd | server/routes.ts:517-521 | Filtering twice is filtering once by both predicates. |
| Seqs.CountIsPositions | server/routes.ts:544-546 | `filter(p).length` is the number of positions holding an element that satisfies `p`. |
| Seqs.ExclusiveCountsBounded | server/routes.ts:544-546 | Counts by three mutually exclusive predicates add up to at most the sequence's length. |
| Tickets.CreateTicketRoute | server/routes.ts:832 | When `requireAuth` calls `next()`, the reply and store are the ticket handler's for the authenticated caller. When it halts, its own reply is sent and no ticket is stored. |
| Tickets.Normalise | server/routes.ts:841-847 | Status is always `pending` and school is always the caller's. A truthy supplied `assignedTo` is kept; otherwise the caller is the assignee. Every other supplied key passes through unchanged, and no other key is added. |
| Tickets.StatusAndSchoolIgnored | server/routes.ts:841-846 | The body's own `status` and `schoolId` have no effect on the normalised ticket. |
| Tickets.NormaliseIdempotent | server/routes.ts:842-847 | Normalising an already normalised body for the same caller gives it back unchanged. |
| Tickets.CreateTicket | server/routes.ts:834-855 | A caller without a school gets 403. For a caller with a school, the reply succeeds exactly when the schema accepts the normalised body. A rejected body gets 400 with the schema's message. Neither failure stores a ticket. On success exactly one ticket is appended and returned with 201. It is pending, belongs to the caller's school, has the normalised assignee, and keeps the body's other keys. |
| Skills.SkillsProgressRoute | server/routes.ts:647 | When `requireAuth` calls `next()`, the reply is the skills-progress handler's for the authenticated caller. When it halts, its own reply is sent. |
| Skills.FirstSeen | server/routes.ts:660-666 | Lists each category of the challenges (a missing or empty one as `General`) exactly once, and no other. |
| Skills.Bump | server/routes.ts:662-666 | A step's category gets a bucket and keeps every existing one. A known category keeps the bucket count. A new category gets a bucket appended at the end. |
| Skills.BumpKeepsShape | server/routes.ts:664-666 | After a step, each category still has exactly one bucket, and every bucket has at least one challenge and no more completions than challenges. |
| Skills.BumpCounts | server/routes.ts:667-671 | A step adds one to its category's total and to the sum of totals. It adds one to the completed count exactly for a completed challenge. |
| Skills.OrderBump | server/routes.ts:664-666 | A step keeps the bucket order for a known category and appends a new one at the end. |
| Skills.Tabulate | server/routes.ts:660-672 | The buckets cover exactly the challenges' categories, each once. Every bucket holds at least one challenge and no more completions than challenges. |
| Skills.TabulateOrder | server/routes.ts:660-672 | The buckets come in the order their categories are first met among the challenges. |
| Skills.TabulateCounts | server/routes.ts:662-672 | For every category, the bucket's total equals the number of challenges in that category. Its completed count equals the number of those that were completed. Both are 0 for a category with no bucket, and the totals sum to the number of challenges. |
| Skills.LookupFindsBucket | server/routes.ts:667 | When no category repeats, looking up a bucket's category returns that bucket's counts. |
| Skills.RoundPercent | server/routes.ts:679 | The result is 0 when the total is 0. Otherwise it is the integer nearest to 100·completed/total, with halves rounded up. It lies within 0..100 when completed ≤ total. |
| Skills.PercentOfBucket | server/routes.ts:679 | For a bucket (at least one challenge, no more completions than challenges), the percentage is within 0..100 and is the ratio rounded half up. |
| Skills.Entries | server/routes.ts:675-680 | Produces one entry per bucket, in the same order, with its rounded percentage. The entries' totals sum to the buckets' totals. |
| Skills.EntriesInFirstSeenOrder | server/routes.ts:674-680 | The entries name the categories once each, in the order each is first met. |
| Skills.EntryCounts | server/routes.ts:674-680 | Each entry's total and completed count are those of its category's challenges, and its percentage is their ratio rounded half up, within 0..100. |
| Skills.EntriesCountChallenges | server/routes.ts:674-680 | Every entry counts its category's challenges and completions, and the totals sum to the number of challenges. |
| Skills.SkillsProgress | server/routes.ts:647-682 | A caller without a school gets 403, and a caller with one gets 200. There is one entry per distinct category, in the order each is first met, with a missing or empty category counted as `General`. Each entry's total and completed count equal the counts of its category's challenges and of those whose id appears among the caller's completions. Completed ≤ total, the totals sum to the number of challenges, and each percentage is the ratio rounded half up, within 0..100. |
| Rankings.RankingsRoute | server/routes.ts:761 | When `requireAuth` calls `next()`, the reply is the rankings handler's for the authenticated caller. When it halts, its own reply is sent. |
| Rankings.Insert | server/routes.ts:772 | Inserting into a list ordered by descending points keeps it ordered. It adds exactly the new element. |
| Rankings.SortByPoints | server/routes.ts:772 | The result is a permutation of the input with points (missing counted as 0) never increasing. |
| Rankings.SortStable | server/routes.ts:772 | The sort is stable: for every points value, the users with that value come out in the order they went in. |
| Rankings.Standings | server/routes.ts:770-772 | The ordered list holds exactly the school's student-role users, each as many times as the school's list does. Points never increase down the list, and students with equal points keep the school list's order. |
| Rankings.Number | server/routes.ts:773-782 | Ranks run consecutively in list order. Each row carries its user's id, display name (`firstName lastName` when both are set, else the username), points and streak (missing ones as 0). A row is marked as the caller's exactly when it has the caller's id. |
| Rankings.Rankings | server/routes.ts:761-784 | A caller without a school gets 403, and a caller with one gets 200. The rows follow the standings. Ranks run 1..n, each row carries its user's display name, points and streak, points never increase down the list, and `isCurrentUser` is true exactly for the caller's id. |
| Flows.ResetThenLogin | server/routes.ts:487-495 | If the hash and verify functions agree, an active user whose password was reset by the corrected handler can log in with the new password. This holds under either membership test. |
| Flows.DeactivationLocksOut | server/routes.ts:39-41 | After an update sets `isActive` to false, every login with the user's username gets the uniform 401 and creates no session. The user's existing sessions are untouched. This holds under either membership test. |

## Left out

- The authentication module is not part of this model. That covers the bodies of `requireAuth`, `requireRole`, `requireSuperAdmin`, `requireAdminOrSuperAdmin`, `requireSchoolContext`, `createSession`, `hashPassword`, `verifyPassword` and `revokeAllUserSessions`. The guards appear only as the verdicts they reach. On the routes behind `requireAuth`, the user it attaches (`req.user`) is a parameter, and nothing ties it to a session. Hashing and verification are parameters.
- Session expiry, lookup and revocation belong to the authentication module. A login's effect is modelled only as the session record it asks for.
- Storage queries are not modelled. `getTickets`, `getChallenges`, `getUserChallengeCompletions`, `getWorkLogsByStudent` and `getUsersBySchool` are passed in as sequences, with their filtering and ordering taken as given. The Drizzle joins and orderings of the super-admin listings are outside the model.
- `storage.updateUser` is modelled only as setting the supplied columns. Any `updatedAt` bookkeeping and the error for an update body with no columns are not modelled.
- An update body is taken as already decoded into typed columns. Unknown keys and ill-typed values are not modelled.
- The reset body's `newPassword` is modelled as an optional string. A non-string value (a number, say) is not modelled; `!newPassword` is modelled for strings only, where it means missing or empty.
- The login body comes in as parsed credentials. `loginSchema`'s parsing is abstract: any body it rejects is one `Failure`.
- The internals of zod validation are abstract. The login body comes in parsed, and the insert-ticket schema is a `validate` parameter. The schema's stripping of unknown keys and its defaults are not modelled, so the stored ticket is the normalised body itself.
- HTTP plumbing is not modelled: the session cookie and its options, `clearCookie`, logging, and the 500 replies of the catch blocks. The exception is the reset handler, whose 500 is its only outcome once its checks pass.
- JSON numbers are modelled as integers, so NaN, fractions and string-valued points are not modelled.
- Skills.RoundPercent: computes `Math.round` on the exact ratio. Floating-point error in `(completed / total) * 100` can round a true half down (for example 14.499… instead of 14.5), and that is not modelled.
- Other handlers are not part of this core: logout, current user, school and account provisioning, admin and student listings, teachers, ticket listing and patching, learning progress, dashboard stats, recent activity, device checks, challenges and resources. The same goes for the `localeCompare` name sorts, the "today" computation from the wall clock, and the `Promise.all` fan-out.
- The client pages are React rendering with no logic to model: the super-admin dashboard, `Dashboard` and `AdminOverview`.

## Findings

| source | as written | input that shows it | evidently intended | confidence | as-written member | corrected member |
|---|---|---|---|---|---|---|
| server/routes.ts:494 | The reset handler calls `bcrypt.hash`, but `bcrypt` is never imported (only `hashPassword` is). The call throws a ReferenceError, and the catch answers 500 without storing anything. | An admin resets the password of student `u1` of school `S1` with `newPassword = "newpass"`. The reply is 500 and the stored hash is unchanged. | Hash the new password with the imported `hashPassword` and store it in the student's row. The intended handler is `Students.ResetPassword` under either membership test. | high; not executed | Students.ResetPasswordAsWritten | Students.ResetPassword |
| server/routes.ts:458 | The student-scoped endpoints (lines 458, 489, 511) check only that the addressed user's `schoolId` equals the path's. They never check that the user is a student. | An admin of school `S1` addresses another admin of `S1` through `/api/schools/S1/students/:id`. The membership test passes, so the update could, for example, deactivate that admin (`Students.AdminUpdatedAsWritten`, and `Students.AdminDetailsAsWritten` for the details page). | Answer "Student not found in this school" unless the addressed user is a student of the path's school: the handlers under `Students.StudentsOnly`. | medium; not executed | Students.AdminUpdatedAsWritten | Students.UpdateStudent |

=== FILE: flows.dfy ===
/**
 * Properties that span two handlers: what an administrator's change to a student
 * means for that student's next login.
 */
module Flows {
  import opened Wrappers
  import opened Records
  import opened Http
  import opened Login
  import opened Students

  /** `UniqueUsernames` carries over to a table whose usernames are unchanged row by row. */
  lemma {:induction false} SameUsernamesStayUnique(before: seq<User>, after: seq<User>)
    requires UniqueUsernames(before)
    requires |after| == |before|
    requires forall i :: 0 <= i < |before| ==> after[i].username == before[i].username
    ensures UniqueUsernames(after)
  {
    forall i, j | 0 <= i < j < |after| ensures after[i].username != after[j].username {
      assert before[i].username != before[j].username;
    }
  }

  /**
   * With the corrected reset (under either membership test), when `hashPassword` and `verifyPassword` agree (the
   * hash of a password verifies that password), an active student whose password
   * an administrator reset can log in with the new password.
   */
  lemma ResetThenLogin(m: Membership, store: Store, schoolId: string, studentId: string, pw: string,
                       hash: string -> string, verify: (string, string) -> bool,
                       token: string, ip: Option<string>, userAgent: Option<string>)
    requires UniqueUsernames(store.users)
    requires forall p :: verify(p, hash(p))
    requires pw != ""
    requires PassesMembership(m, UserById(store.users, studentId), schoolId)
    requires UserById(store.users, studentId).value.isActive
    ensures
      var student := UserById(store.users, studentId).value;
      var after := ResetPassword(m, store, schoolId, studentId, Some(pw), hash);
      && after.0.Ok?
      && HandleLogin(after.1, Success(Credentials(student.username, pw)), verify, token, ip, userAgent).0.Ok?
  {
    var student := UserById(store.users, studentId).value;
    var after := ResetPassword(m, store, schoolId, studentId, Some(pw), hash).1;
    var k :| 0 <= k < |store.users| && store.users[k] == student;
    SameUsernamesStayUnique(store.users, after.users);
    assert after.users[k] == student.(passwordHash := hash(pw));
    UsernameLookupFindsTheRow(after.users, after.users[k]);
  }

  /**
   * Under either membership test, an update that sets `isActive` to false locks the student out: every later
   * login with the student's username gets the uniform 401 and creates no session.
   * (The update does not revoke the sessions the student already holds.)
   */
  lemma DeactivationLocksOut(m: Membership, store: Store, schoolId: string, studentId: string, body: UserPatch,
                             password: string, verify: (string, string) -> bool,
                             token: string, ip: Option<string>, userAgent: Option<string>)
    requires UniqueUsernames(store.users)
    requires body.isActive == SetTo(false) && body.username == Keep
    requires PassesMembership(m, UserById(store.users, studentId), schoolId)
    ensures
      var student := UserById(store.users, studentId).value;
      var after := UpdateStudent(m, store, schoolId, studentId, body).1;
      && after.sessions == store.sessions
      && HandleLogin(after, Success(Credentials(student.username, password)), verify, token, ip, userAgent) == (InvalidCredentials, after)
  {
    var student := UserById(store.users, studentId).value;
    var after := UpdateStudent(m, store, schoolId, studentId, body).1;
    var k :| 0 <= k < |store.users| && store.users[k] == student;
    SameUsernamesStayUnique(store.users, after.users);
    assert UpdatedByBody(store.users[k], after.users[k], body);
    UsernameLookupFindsTheRow(after.users, after.users[k]);
  }
}

=== FILE: http.dfy ===
/**
 * Handler outcomes and the middleware chain in front of each route.
 *
 * The guards imported from the authentication module (`requireAuth`, `requireRole`,
 * `requireAdminOrSuperAdmin`, `requireSchoolContext`) are not part of this model: a
 * route receives the verdict each guard reached for the request, in the order the
 * route lists them, and the chain is evaluated as Express does.
 */
module Http {
  import opened Wrappers
  import opened Json
  import opened Records

  /** What `res.status(s).json(...)` sends: a payload, or a `{ message }` error body. */
  datatype Reply<+B> = Ok(status: int, payload: B) | Fail(status: int, message: string)

  /** A middleware's decision: call `next()`, or answer the request itself. */
  datatype Verdict = Next | Halt(status: int, message: string)

  /** The reply of every handler that needs the caller's home school when the caller has none. */
  const NoSchool := "User must belong to a school"

  /** `if (!user.schoolId)`: the caller belongs to a school. */
  predicate HasSchool(caller: User) {
    Filled(caller.schoolId)
  }

  /** The index of the first guard that answered the request, if any. */
  function FirstHalt(chain: seq<Verdict>): (r: Option<nat>)
    ensures r.Some? ==> r.value < |chain| && chain[r.value].Halt?
    ensures r.Some? ==> forall j :: 0 <= j < r.value ==> chain[j] == Next
    ensures r.None? <==> forall j :: 0 <= j < |chain| ==> chain[j] == Next
  {
    if chain == [] then None
    else if chain[0].Halt? then Some(0)
    else match FirstHalt(chain[1..])
      case None => None
      case Some(k) => Some(k + 1)
  }

  /**
   * `r` is what the first guard that answered sent: its status and message, every
   * earlier guard having called `next()`.
   */
  predicate AnsweredByFirstHalt<B>(chain: seq<Verdict>, r: Reply<B>) {
    exists j :: 0 <= j < |chain| && chain[j].Halt? && r == Fail(chain[j].status, chain[j].message) &&
      forall i :: 0 <= i < j ==> chain[i] == Next
  }

  /**
   * The reply of a route whose handler only reads: the first guard that halts
   * answers with its own status and message; when every guard calls `next()` the
   * handler's reply stands.
   */
  function Answer<B>(chain: seq<Verdict>, handled: Reply<B>): (r: Reply<B>)
    ensures (forall j :: 0 <= j < |chain| ==> chain[j] == Next) ==> r == handled
    ensures (exists j :: 0 <= j < |chain| && chain[j].Halt?) ==> AnsweredByFirstHalt(chain, r)
  {
    match FirstHalt(chain)
    case None => handled
    case Some(k) => Fail(chain[k].status, chain[k].message)
  }

  /**
   * A route whose handler writes: as `Answer`, and the handler's effect on the
   * store happens only when every guard calls `next()`.
   */
  function Route<B>(chain: seq<Verdict>, store: Store, handled: (Reply<B>, Store)): (out: (Reply<B>, Store))
    ensures out.0 == Answer(chain, handled.0)
    ensures (forall j :: 0 <= j < |chain| ==> chain[j] == Next) ==> out == handled
    ensures (exists j :: 0 <= j < |chain| && chain[j].Halt?) ==> out.1 == store
  {
    match FirstHalt(chain)
    case None => handled
    case Some(k) => (Fail(chain[k].status, chain[k].message), store)
  }
}

=== FILE: json.dfy ===
/**
 * JSON values as an Express handler receives them in `req.body`, together with the
 * two pieces of JavaScript semantics the handlers rely on: reading a property that
 * may be `undefined`, and truthiness (what `x || y` and `if (!x)` test).
 */
module Json {
  import opened Wrappers

  /** A JSON value. Numbers are modelled as integers. */
  datatype Json =
    | JNull
    | JBool(b: bool)
    | JNum(n: int)
    | JStr(s: string)
    | JArr(items: seq<Json>)
    | JObj(members: map<string, Json>)

  /** A JSON object such as a request body or a row built by object spread. */
  type Object = map<string, Json>

  /** `o[k]`; `None` is JavaScript's `undefined`. */
  function Get(o: Object, k: string): (r: Option<Json>)
    ensures r.Some? <==> k in o
    ensures r.Some? ==> r.value == o[k]
  {
    if k in o then Some(o[k]) else None
  }

  /** JavaScript truthiness of a property read: `undefined`, `null`, `false`, `0` and `""` are falsy. */
  predicate Truthy(v: Option<Json>) {
    match v
    case None => false
    case Some(JNull) => false
    case Some(JBool(b)) => b
    case Some(JNum(n)) => n != 0
    case Some(JStr(s)) => s != ""
    case Some(JArr(_)) => true
    case Some(JObj(_)) => true
  }

  /** Truthiness of a nullable string column or string field: present and not empty. */
  predicate Filled(v: Option<string>) {
    v.Some? && v.value != ""
  }
}

=== FILE: login.dfy ===
/**
 * `POST /api/auth/login`: the only place a session is issued.
 *
 * `verifyPassword` (the salted hash comparison) is a parameter; the session token
 * that `createSession` generates is a parameter too, since it is random.
 */
module Login {
  import opened Wrappers
  import opened Records
  import opened Http

  /** The validated login body. */
  datatype Credentials = Credentials(username: string, password: string)

  /** The only user fields the success reply carries. */
  datatype UserSummary = UserSummary(id: string, username: string, email: string, role: Role)

  /** The success body: `{ message, user }`. */
  datatype Welcome = Welcome(message: string, user: UserSummary)

  /** The single failure answer for an unknown user, an inactive user and a wrong password. */
  const InvalidCredentials: Reply<Welcome> := Fail(401, "Invalid credentials")

  /** What the login gate demands: the named user exists, is active, and the password verifies. */
  predicate Admits(users: seq<User>, c: Credentials, verify: (string, string) -> bool) {
    match UserByUsername(users, c.username)
    case None => false
    case Some(u) => u.isActive && verify(c.password, u.passwordHash)
  }

  /**
   * The login handler. `body` is the outcome of the login schema's parse, a
   * failure carrying the validation message. A session is appended to the store
   * exactly when the gate admits the caller; every other request leaves the store
   * as it was, and every rejected credential gets the same 401 reply.
   */
  function HandleLogin(store: Store, body: Result<Credentials, string>, verify: (string, string) -> bool,
                       token: string, ip: Option<string>, userAgent: Option<string>): (out: (Reply<Welcome>, Store))
    ensures body.Failure? ==> out == (Fail(400, body.error), store)
    ensures body.Success? && !Admits(store.users, body.value, verify) ==> out == (InvalidCredentials, store)
    ensures out.0.Ok? <==> body.Success? && Admits(store.users, body.value, verify)
    ensures out.0.Ok? ==>
      var u := UserByUsername(store.users, body.value.username).value;
      && out.0 == Ok(200, Welcome("Login successful", UserSummary(u.id, u.username, u.email, u.role)))
      && out.1 == store.(sessions := store.sessions + [Session(token, u.id, ip, userAgent)])
  {
    match body
    case Failure(msg) => (Fail(400, msg), store)
    case Success(c) =>
      match UserByUsername(store.users, c.username)
      case None => (InvalidCredentials, store)
      case Some(u) =>
        if !u.isActive then (InvalidCredentials, store)
        else if !verify(c.password, u.passwordHash) then (InvalidCredentials, store)
        else
          var s := Session(token, u.id, ip, userAgent);
          (Ok(200, Welcome("Login successful", UserSummary(u.id, u.username, u.email, u.role))),
           store.(sessions := store.sessions + [s]))
  }

  /**
   * With usernames unique, a login succeeds exactly when some stored user has the
   * name, is active and the password verifies against that user's hash; the new
   * session belongs to that user and the reply describes that user.
   */
  lemma LoginSucceedsIff(store: Store, c: Credentials, verify: (string, string) -> bool,
                         token: string, ip: Option<string>, userAgent: Option<string>)
    requires UniqueUsernames(store.users)
    ensures
      var out := HandleLogin(store, Success(c), verify, token, ip, userAgent);
      out.0.Ok? <==> exists u :: u in store.users && u.username == c.username && u.isActive && verify(c.password, u.passwordHash)
    ensures forall u :: u in store.users && u.username == c.username && u.isActive && verify(c.password, u.passwordHash) ==>
      var out := HandleLogin(store, Success(c), verify, token, ip, userAgent);
      && out.0 == Ok(200, Welcome("Login successful", UserSummary(u.id, u.username, u.email, u.role)))
      && out.1.sessions == store.sessions + [Session(token, u.id, ip, userAgent)]
  {
    forall u | u in store.users && u.username == c.username
      ensures UserByUsername(store.users, c.username) == Some(u)
    {
      UsernameLookupFindsTheRow(store.users, u);
    }
  }

  /**
   * Failures are indistinguishable: two rejected logins, whatever made them fail
   * (no such user, inactive account, wrong password), give the same reply and leave
   * the store, including the sessions, untouched, whatever token was on offer.
   */
  lemma RejectionsAreUniform(store: Store, c1: Credentials, c2: Credentials, verify: (string, string) -> bool,
                             t1: string, t2: string, ip1: Option<string>, ip2: Option<string>,
                             ua1: Option<string>, ua2: Option<string>)
    requires !HandleLogin(store, Success(c1), verify, t1, ip1, ua1).0.Ok?
    requires !HandleLogin(store, Success(c2), verify, t2, ip2, ua2).0.Ok?
    ensures HandleLogin(store, Success(c1), verify, t1, ip1, ua1) == HandleLogin(store, Success(c2), verify, t2, ip2, ua2)
    ensures HandleLogin(store, Success(c1), verify, t1, ip1, ua1) == (InvalidCredentials, store)
  {
  }
}

=== FILE: rankings.dfy ===
/**
 * `GET /api/student/rankings`: the students of the caller's school ordered by
 * points, highest first, numbered from 1, with the caller's own row marked.
 */
module Rankings {
  import opened Wrappers
  import opened Json
  import opened Seqs
  import opened Records
  import opened Http

  /** `student.points || 0`: a missing score counts as 0. */
  function PointsOf(u: User): int {
    u.points.GetOr(0)
  }

  /** `student.streak || 0`. */
  function StreakOf(u: User): int {
    u.streak.GetOr(0)
  }

  /** `firstName && lastName ? firstName + ' ' + lastName : username`. */
  function DisplayName(u: User): string {
    if Filled(u.firstName) && Filled(u.lastName) then u.firstName.value + " " + u.lastName.value
    else u.username
  }

  /** Points never increase down the list. */
  predicate ByPointsDescending(s: seq<User>) {
    forall i, j :: 0 <= i < j < |s| ==> PointsOf(s[i]) >= PointsOf(s[j])
  }

  /**
   * Places `x` into a list already ordered by points, after every element with at
   * least its points (so that, as with JavaScript's stable sort, ties keep their
   * arrival order).
   */
  function Insert(sorted: seq<User>, x: User): (r: seq<User>)
    requires ByPointsDescending(sorted)
    ensures ByPointsDescending(r)
    ensures multiset(r) == multiset(sorted) + multiset{x}
  {
    if sorted == [] then [x]
    else if PointsOf(sorted[0]) >= PointsOf(x) then
      var head := sorted[0];
      var rest := Insert(sorted[1..], x);
      assert sorted == [head] + sorted[1..];
      HeadDominates(sorted, rest, x);
      [head] + rest
    else [x] + sorted
  }

  /** The head of an ordered list has at least the points of anything inserted behind it. */
  lemma HeadDominates(sorted: seq<User>, rest: seq<User>, x: User)
    requires sorted != [] && ByPointsDescending(sorted) && PointsOf(sorted[0]) >= PointsOf(x)
    requires multiset(rest) == multiset(sorted[1..]) + multiset{x}
    ensures forall i :: 0 <= i < |rest| ==> PointsOf(sorted[0]) >= PointsOf(rest[i])
  {
    forall i | 0 <= i < |rest| ensures PointsOf(sorted[0]) >= PointsOf(rest[i]) {
      assert rest[i] in multiset(rest);
      if rest[i] != x {
        assert rest[i] in multiset(sorted[1..]);
        var k :| 0 <= k < |sorted[1..]| && sorted[1..][k] == rest[i];
        assert sorted[1..][k] == sorted[k + 1];
      }
    }
  }

  /** `.sort((a, b) => (b.points || 0) - (a.points || 0))`. */
  function SortByPoints(s: seq<User>): (r: seq<User>)
    ensures ByPointsDescending(r)
    ensures multiset(r) == multiset(s)
    decreases |s|
  {
    if s == [] then []
    else
      assert s == s[..|s| - 1] + [s[|s| - 1]];
      Insert(SortByPoints(s[..|s| - 1]), s[|s| - 1])
  }

  /** The users of `s` with exactly `v` points, in their order in `s`. */
  function WithPoints(s: seq<User>, v: int): seq<User> {
    if s == [] then []
    else (if PointsOf(s[0]) == v then [s[0]] else []) + WithPoints(s[1..], v)
  }

  /** Selecting a points value from a list with a head looks at the head, then at the rest. */
  lemma WithPointsCons(h: User, t: seq<User>, v: int)
    ensures WithPoints([h] + t, v) == (if PointsOf(h) == v then [h] else []) + WithPoints(t, v)
  {
    assert ([h] + t)[0] == h && ([h] + t)[1..] == t;
  }

  /** Selecting a points value distributes over concatenation. */
  lemma {:induction false} WithPointsConcat(a: seq<User>, b: seq<User>, v: int)
    ensures WithPoints(a + b, v) == WithPoints(a, v) + WithPoints(b, v)
  {
    if a == [] {
      assert a + b == b;
    } else {
      var head := if PointsOf(a[0]) == v then [a[0]] else [];
      WithPointsConcat(a[1..], b, v);
      assert a + b == [a[0]] + (a[1..] + b);
      WithPointsCons(a[0], a[1..] + b, v);
      assert a == [a[0]] + a[1..];
      WithPointsCons(a[0], a[1..], v);
      assert head + (WithPoints(a[1..], v) + WithPoints(b, v)) == (head + WithPoints(a[1..], v)) + WithPoints(b, v);
    }
  }

  /** A list whose every element has fewer than `v` points has none with `v`. */
  lemma {:induction false} NoneWithPoints(s: seq<User>, v: int)
    requires forall i :: 0 <= i < |s| ==> PointsOf(s[i]) < v
    ensures WithPoints(s, v) == []
  {
    if s != [] {
      NoneWithPoints(s[1..], v);
    }
  }

  /** `Insert` places `x` behind every element with its points: among equals it comes last. */
  lemma {:induction false} InsertStable(sorted: seq<User>, x: User, v: int)
    requires ByPointsDescending(sorted)
    ensures WithPoints(Insert(sorted, x), v) == WithPoints(sorted, v) + (if PointsOf(x) == v then [x] else [])
  {
    var tail := if PointsOf(x) == v then [x] else [];
    if sorted == [] {
      assert Insert(sorted, x) == [x];
      assert WithPoints([x], v) == tail + WithPoints([], v);
    } else if PointsOf(sorted[0]) >= PointsOf(x) {
      DescendingTail(sorted);
      InsertStable(sorted[1..], x, v);
      assert Insert(sorted, x) == [sorted[0]] + Insert(sorted[1..], x);
      KeepHead(sorted, Insert(sorted[1..], x), v, tail);
    } else {
      InsertInFrontStable(sorted, x, v);
    }
  }

  /** The tail of a list ordered by points is ordered by points. */
  lemma DescendingTail(s: seq<User>)
    requires s != [] && ByPointsDescending(s)
    ensures ByPointsDescending(s[1..])
  {
    forall i, j | 0 <= i < j < |s[1..]| ensures PointsOf(s[1..][i]) >= PointsOf(s[1..][j]) {
      assert s[1..][i] == s[i + 1] && s[1..][j] == s[j + 1];
    }
  }

  /** Putting `s`'s head in front of a list that selects like `s`'s tail selects like `s`. */
  lemma KeepHead(s: seq<User>, rest: seq<User>, v: int, tail: seq<User>)
    requires s != []
    requires WithPoints(rest, v) == WithPoints(s[1..], v) + tail
    ensures WithPoints([s[0]] + rest, v) == WithPoints(s, v) + tail
  {
    var head := if PointsOf(s[0]) == v then [s[0]] else [];
    WithPointsCons(s[0], rest, v);
    assert WithPoints(s, v) == head + WithPoints(s[1..], v);
    assert head + (WithPoints(s[1..], v) + tail) == (head + WithPoints(s[1..], v)) + tail;
  }

  /** When `x` outranks the head it goes in front, ahead of nothing with its own points. */
  lemma InsertInFrontStable(sorted: seq<User>, x: User, v: int)
    requires ByPointsDescending(sorted)
    requires sorted != [] && PointsOf(sorted[0]) < PointsOf(x)
    ensures WithPoints(Insert(sorted, x), v) == WithPoints(sorted, v) + (if PointsOf(x) == v then [x] else [])
  {
    var tail := if PointsOf(x) == v then [x] else [];
    var r := Insert(sorted, x);
    assert r == [x] + sorted;
    assert r[0] == x && r[1..] == sorted;
    forall i | 0 <= i < |sorted| ensures PointsOf(sorted[i]) < PointsOf(x) {
      assert PointsOf(sorted[0]) >= PointsOf(sorted[i]) || i == 0;
    }
    if PointsOf(x) == v {
      NoneWithPoints(sorted, v);
    }
    assert WithPoints(r, v) == tail + WithPoints(sorted, v);
  }

  /**
   * The sort is stable, as JavaScript's `Array.prototype.sort` is: the users that
   * share a points value come out in the order they went in.
   */
  lemma {:induction false} SortStable(s: seq<User>, v: int)
    ensures WithPoints(SortByPoints(s), v) == WithPoints(s, v)
    decreases |s|
  {
    if s != [] {
      var init := s[..|s| - 1];
      var last := s[|s| - 1];
      var tail := if PointsOf(last) == v then [last] else [];
      assert SortByPoints(s) == Insert(SortByPoints(init), last);
      SortStable(init, v);
      InsertStable(SortByPoints(init), last, v);
      assert s == init + [last];
      WithPointsConcat(init, [last], v);
      assert WithPoints([last], v) == tail + WithPoints([], v);
    }
  }

  /** `.filter(s => s.role === 'student')`. */
  function StudentsOf(users: seq<User>): seq<User> {
    Filter(users, (u: User) => u.role == Student)
  }

  /**
   * The school's students in ranking order: exactly the student-role users, each
   * as often as the school's list holds them, with points never increasing, and
   * students with equal points in the order the school's list gives them.
   */
  function Standings(schoolUsers: seq<User>): (order: seq<User>)
    ensures multiset(order) == multiset(StudentsOf(schoolUsers))
    ensures forall u :: u in order <==> u in schoolUsers && u.role == Student
    ensures ByPointsDescending(order)
    ensures forall v :: WithPoints(order, v) == WithPoints(StudentsOf(schoolUsers), v)
  {
    var order := SortByPoints(StudentsOf(schoolUsers));
    forall v ensures WithPoints(order, v) == WithPoints(StudentsOf(schoolUsers), v) {
      SortStable(StudentsOf(schoolUsers), v);
    }
    forall u ensures u in order <==> u in StudentsOf(schoolUsers) {
      assert u in order <==> u in multiset(order);
    }
    order
  }

  /** One row of the reply. */
  datatype RankEntry = RankEntry(rank: nat, id: string, name: string, points: int, streak: int, isCurrentUser: bool)

  /** Numbers the ordered students from `from + 1` on and marks the caller's row. */
  function Number(order: seq<User>, callerId: string, from: nat): (e: seq<RankEntry>)
    ensures |e| == |order|
    ensures forall i :: 0 <= i < |order| ==>
      && e[i].rank == from + i + 1
      && e[i].id == order[i].id
      && e[i].name == DisplayName(order[i])
      && e[i].points == PointsOf(order[i])
      && e[i].streak == StreakOf(order[i])
      && (e[i].isCurrentUser <==> order[i].id == callerId)
  {
    if order == [] then []
    else
      var u := order[0];
      [RankEntry(from + 1, u.id, DisplayName(u), PointsOf(u), StreakOf(u), u.id == callerId)]
        + Number(order[1..], callerId, from + 1)
  }

  /**
   * The rankings handler after `requireAuth`; `schoolUsers` is what the storage
   * returns for the caller's school. A caller without a school gets 403. Otherwise
   * the rows follow `Standings`: the school's student-role users, each exactly
   * once, with points (missing counted as 0) never increasing, numbered 1..n in
   * list order; a row is marked as the caller's exactly when it has the caller's id.
   */
  function Rankings(caller: User, schoolUsers: seq<User>): (r: Reply<seq<RankEntry>>)
    ensures !HasSchool(caller) <==> r == Fail(403, NoSchool)
    ensures r.Ok? <==> HasSchool(caller)
    ensures r.Ok? ==>
      var e := r.payload;
      var order := Standings(schoolUsers);
      && r.status == 200
      && |e| == |order|
      && (forall i :: 0 <= i < |e| ==>
            && e[i].rank == i + 1
            && e[i].id == order[i].id && e[i].name == DisplayName(order[i])
            && e[i].points == PointsOf(order[i]) && e[i].streak == StreakOf(order[i])
            && (e[i].isCurrentUser <==> e[i].id == caller.id))
      && (forall i, j :: 0 <= i < j < |e| ==> e[i].points >= e[j].points)
  {
    if !HasSchool(caller) then Fail(403, NoSchool)
    else Ok(200, Number(Standings(schoolUsers), caller.id, 0))
  }

  /**
   * The rankings route (`app.get('/api/student/rankings', requireAuth, ...)`):
   * `caller` is the user `requireAuth` attached. When the guard calls `next()` the
   * handler's reply stands; otherwise the guard's own reply does.
   */
  function RankingsRoute(guards: seq<Verdict>, caller: User, schoolUsers: seq<User>): (r: Reply<seq<RankEntry>>)
    ensures (forall j :: 0 <= j < |guards| ==> guards[j] == Next) ==> r == Rankings(caller, schoolUsers)
    ensures (exists j :: 0 <= j < |guards| && guards[j].Halt?) ==> AnsweredByFirstHalt(guards, r)
  {
    Answer(guards, Rankings(caller, schoolUsers))
  }
}

=== FILE: records.dfy ===
/**
 * The rows the route handlers read and write. The storage layer is replaced by
 * immutable sequences: `Store` holds the three tables the modelled handlers change.
 */
module Records {
  import opened Wrappers
  import opened Json

  /** The `role` column. */
  datatype Role = SuperAdmin | Admin | Student

  /** A row of the users table: its schema columns, nullable ones as `Option`. */
  datatype User = User(
    id: string,
    username: string,
    email: string,
    passwordHash: string,
    role: Role,
    schoolId: Option<string>,
    isActive: bool,
    firstName: Option<string>,
    lastName: Option<string>,
    points: Option<int>,
    streak: Option<int>,
    selectedAvatar: Option<string>,
    createdAt: int)

  /** A ticket row: the store's id and the JSON object it was created from. */
  datatype Ticket = Ticket(id: string, fields: Object)

  /** What `createSession` is handed: the user, the client address and the user agent. */
  datatype Session = Session(token: string, userId: string, ip: Option<string>, userAgent: Option<string>)

  /** A learning challenge; `category` is nullable. */
  datatype Challenge = Challenge(id: string, category: Option<string>)

  /** A record that a user completed a challenge. */
  datatype Completion = Completion(challengeId: string)

  /** A work-log entry of a student. */
  datatype WorkLog = WorkLog(id: string)

  /** The tables the modelled handlers write. */
  datatype Store = Store(users: seq<User>, tickets: seq<Ticket>, sessions: seq<Session>)

  /** The first user row that satisfies `p`, as a `select ... where ... limit 1` returns it. */
  function FirstWhere(users: seq<User>, p: User -> bool): (r: Option<User>)
    ensures r.Some? ==> r.value in users && p(r.value)
    ensures r.None? <==> forall u :: u in users ==> !p(u)
  {
    if users == [] then None
    else if p(users[0]) then Some(users[0])
    else FirstWhere(users[1..], p)
  }

  /** When `u` is the only row satisfying `p`, the lookup finds it. */
  lemma {:induction false} FirstWhereFindsTheOnlyMatch(users: seq<User>, p: User -> bool, u: User)
    requires u in users && p(u)
    requires forall v :: v in users && p(v) ==> v == u
    ensures FirstWhere(users, p) == Some(u)
  {
    if users[0] != u {
      assert u in users[1..] by {
        var k :| 0 <= k < |users| && users[k] == u;
        assert k > 0 && users[1..][k - 1] == u;
      }
      FirstWhereFindsTheOnlyMatch(users[1..], p, u);
    }
  }

  /** `storage.getUserById`: the first user row with that id. */
  function UserById(users: seq<User>, id: string): (r: Option<User>)
    ensures r.Some? ==> r.value in users && r.value.id == id
    ensures r.None? <==> forall u :: u in users ==> u.id != id
  {
    FirstWhere(users, (u: User) => u.id == id)
  }

  /** `storage.getUserByUsername`: the first user row with that (case-sensitive) username. */
  function UserByUsername(users: seq<User>, username: string): (r: Option<User>)
    ensures r.Some? ==> r.value in users && r.value.username == username
    ensures r.None? <==> forall u :: u in users ==> u.username != username
  {
    FirstWhere(users, (u: User) => u.username == username)
  }

  /** The users table's unique constraint on `username`. */
  predicate UniqueUsernames(users: seq<User>) {
    forall i, j :: 0 <= i < j < |users| ==> users[i].username != users[j].username
  }

  /** The users table's primary key. */
  predicate UniqueIds(users: seq<User>) {
    forall i, j :: 0 <= i < j < |users| ==> users[i].id != users[j].id
  }

  /** Under the unique constraint, the lookup by username finds the one row that has it. */
  lemma UsernameLookupFindsTheRow(users: seq<User>, u: User)
    requires UniqueUsernames(users)
    requires u in users
    ensures UserByUsername(users, u.username) == Some(u)
  {
    var k :| 0 <= k < |users| && users[k] == u;
    forall v | v in users && v.username == u.username ensures v == u {
      var i :| 0 <= i < |users| && users[i] == v;
      assert !(i < k) && !(k < i);
    }
    FirstWhereFindsTheOnlyMatch(users, (v: User) => v.username == u.username, u);
  }

  /** Under the primary key, the lookup by id finds the one row that has it. */
  lemma IdLookupFindsTheRow(users: seq<User>, u: User)
    requires UniqueIds(users)
    requires u in users
    ensures UserById(users, u.id) == Some(u)
  {
    var k :| 0 <= k < |users| && users[k] == u;
    forall v | v in users && v.id == u.id ensures v == u {
      var i :| 0 <= i < |users| && users[i] == v;
      assert !(i < k) && !(k < i);
    }
    FirstWhereFindsTheOnlyMatch(users, (v: User) => v.id == u.id, u);
  }
}

=== FILE: seqs.dfy ===
/** `Array.prototype.filter` and counting by a predicate, with the facts the handlers need. */
module Seqs {

  /**
   * The elements of `s` that satisfy `p`, in their original order: every
   * occurrence of a satisfying element is kept and every other one dropped.
   */
  function Filter<T(!new)>(s: seq<T>, p: T -> bool): (r: seq<T>)
    ensures |r| <= |s|
    ensures forall x :: x in r <==> x in s && p(x)
    ensures forall i :: 0 <= i < |r| ==> p(r[i])
    ensures forall x :: multiset(r)[x] == if p(x) then multiset(s)[x] else 0
  {
    if s == [] then []
    else
      assert s == [s[0]] + s[1..];
      assert multiset(s) == multiset{s[0]} + multiset(s[1..]);
      if p(s[0]) then [s[0]] + Filter(s[1..], p)
      else Filter(s[1..], p)
  }

  /** Filtering a concatenation filters each part and keeps the parts in order. */
  lemma {:induction false} FilterConcat<T(!new)>(a: seq<T>, b: seq<T>, p: T -> bool)
    ensures Filter(a + b, p) == Filter(a, p) + Filter(b, p)
  {
    if a == [] {
      assert a + b == b;
    } else {
      assert (a + b)[0] == a[0];
      assert (a + b)[1..] == a[1..] + b;
      FilterConcat(a[1..], b, p);
    }
  }

  /** Both predicates at once. */
  function And<T>(p: T -> bool, q: T -> bool): T -> bool {
    (x: T) => p(x) && q(x)
  }

  /** Filtering by `p` and then by `q` is filtering once by both. */
  lemma {:induction false} FilterAnd<T(!new)>(s: seq<T>, p: T -> bool, q: T -> bool)
    ensures Filter(Filter(s, p), q) == Filter(s, And(p, q))
  {
    if s != [] {
      FilterAnd(s[1..], p, q);
      if p(s[0]) {
        assert Filter(s, p) == [s[0]] + Filter(s[1..], p);
        assert Filter(s, p)[0] == s[0] && Filter(s, p)[1..] == Filter(s[1..], p);
      }
    }
  }

  /** `s.filter(p).length`. */
  function Count<T(!new)>(s: seq<T>, p: T -> bool): nat {
    |Filter(s, p)|
  }

  /** The positions of `s` whose element satisfies `p`. */
  function Positions<T>(s: seq<T>, p: T -> bool): set<int> {
    set i | 0 <= i < |s| && p(s[i])
  }

  /** Appending an element adds its position exactly when it satisfies `p`. */
  lemma PositionsSnoc<T>(init: seq<T>, last: T, p: T -> bool)
    ensures Positions(init + [last], p) == Positions(init, p) + (if p(last) then {|init|} else {})
    ensures |init| !in Positions(init, p)
  {
    var s := init + [last];
    forall i | 0 <= i < |init| ensures s[i] == init[i] {
    }
    assert s[|init|] == last;
  }

  /** Appending an element adds one to the count exactly when it satisfies `p`. */
  lemma CountSnoc<T(!new)>(init: seq<T>, last: T, p: T -> bool)
    ensures Count(init + [last], p) == Count(init, p) + (if p(last) then 1 else 0)
  {
    FilterConcat(init, [last], p);
    assert Filter([last], p) == (if p(last) then [last] else []) + Filter([], p);
  }

  /** The count is the number of positions holding a satisfying element. */
  lemma {:induction false} CountIsPositions<T(!new)>(s: seq<T>, p: T -> bool)
    ensures Count(s, p) == |Positions(s, p)|
    decreases |s|
  {
    if s != [] {
      var init := s[..|s| - 1];
      var last := s[|s| - 1];
      assert s == init + [last];
      CountIsPositions(init, p);
      CountSnoc(init, last, p);
      PositionsSnoc(init, last, p);
    }
  }

  /** Counting by three predicates of which no two hold together never exceeds the length. */
  lemma {:induction false} ExclusiveCountsBounded<T(!new)>(s: seq<T>, p: T -> bool, q: T -> bool, w: T -> bool)
    requires forall x :: !(p(x) && q(x)) && !(p(x) && w(x)) && !(q(x) && w(x))
    ensures Count(s, p) + Count(s, q) + Count(s, w) <= |s|
  {
    if s != [] {
      ExclusiveCountsBounded(s[1..], p, q, w);
    }
  }
}

=== FILE: skills.dfy ===
/**
 * `GET /api/student/skills-progress`: the caller's school's challenges grouped by
 * category, in the order a category is first met, with how many of each the
 * caller completed and the rounded completion percentage.
 */
module Skills {
  import opened Wrappers
  import opened Json
  import opened Records
  import opened Http

  /** `challenge.category || 'General'`. */
  function CategoryOf(c: Challenge): string {
    if Filled(c.category) then c.category.value else "General"
  }

  /** The challenges of `cs` that fall in category `cat`. */
  function CountIn(cs: seq<Challenge>, cat: string): nat
    decreases |cs|
  {
    if cs == [] then 0
    else CountIn(cs[..|cs| - 1], cat) + (if CategoryOf(cs[|cs| - 1]) == cat then 1 else 0)
  }

  /** The challenges of `cs` in category `cat` whose id is among `done`. */
  function DoneIn(cs: seq<Challenge>, cat: string, done: set<string>): nat
    decreases |cs|
  {
    if cs == [] then 0
    else DoneIn(cs[..|cs| - 1], cat, done) + (if CategoryOf(cs[|cs| - 1]) == cat && cs[|cs| - 1].id in done then 1 else 0)
  }

  /** The categories the challenges fall in. */
  function CategoriesOf(cs: seq<Challenge>): set<string> {
    set c | c in cs :: CategoryOf(c)
  }

  /** The categories of `cs`, each once, in the order each is first met. */
  function FirstSeen(cs: seq<Challenge>): (r: seq<string>)
    ensures forall x :: x in r <==> x in CategoriesOf(cs)
    ensures forall i, j :: 0 <= i < j < |r| ==> r[i] != r[j]
    decreases |cs|
  {
    if cs == [] then []
    else
      var init := cs[..|cs| - 1];
      var last := cs[|cs| - 1];
      CategoriesSnoc(init, last);
      assert cs == init + [last];
      var before := FirstSeen(init);
      if CategoryOf(last) in before then before else before + [CategoryOf(last)]
  }

  /** One entry of the `categories` map while it is being filled. */
  datatype Bucket = Bucket(category: string, total: nat, completed: nat)

  /** The categories that have a bucket. */
  function Keys(b: seq<Bucket>): set<string> {
    set i | 0 <= i < |b| :: b[i].category
  }

  /** No category has two buckets (a `Map` has each key once). */
  predicate Distinct(b: seq<Bucket>) {
    forall i, j :: 0 <= i < j < |b| ==> b[i].category != b[j].category
  }

  /** `categories.get(cat)?.total ?? 0`. */
  function TotalFor(b: seq<Bucket>, cat: string): nat {
    if b == [] then 0 else if b[0].category == cat then b[0].total else TotalFor(b[1..], cat)
  }

  /** `categories.get(cat)?.completed ?? 0`. */
  function DoneFor(b: seq<Bucket>, cat: string): nat {
    if b == [] then 0 else if b[0].category == cat then b[0].completed else DoneFor(b[1..], cat)
  }

  /** The sum of the buckets' totals. */
  function SumTotals(b: seq<Bucket>): nat {
    if b == [] then 0 else b[0].total + SumTotals(b[1..])
  }

  /** Every bucket counts at least one challenge and no more completions than challenges. */
  predicate WellCounted(b: seq<Bucket>) {
    forall i :: 0 <= i < |b| ==> 1 <= b[i].total && b[i].completed <= b[i].total
  }

  /**
   * One step of the `forEach`: the challenge's category gets a bucket if it has
   * none (appended, as `Map.set` appends a new key), and its bucket's total goes
   * up by one and its completed count by one if the challenge was completed.
   */
  function Bump(b: seq<Bucket>, cat: string, hit: bool): (r: seq<Bucket>)
    ensures Keys(r) == Keys(b) + {cat}
    ensures cat in Keys(b) ==> |r| == |b|
    ensures cat !in Keys(b) ==> r == b + [Bucket(cat, 1, if hit then 1 else 0)]
    ensures forall i :: 0 <= i < |b| ==> r[i].category == b[i].category
  {
    if b == [] then
      var r := [Bucket(cat, 1, if hit then 1 else 0)];
      assert Keys(r) == {cat} by { assert r[0].category == cat; }
      r
    else if b[0].category == cat then
      assert b == [b[0]] + b[1..];
      KeysCons(b[0], b[1..]);
      KeysCons(b[0].(total := b[0].total + 1, completed := b[0].completed + (if hit then 1 else 0)), b[1..]);
      [b[0].(total := b[0].total + 1, completed := b[0].completed + (if hit then 1 else 0))] + b[1..]
    else
      var rest := Bump(b[1..], cat, hit);
      assert b == [b[0]] + b[1..];
      KeysCons(b[0], b[1..]);
      KeysCons(b[0], rest);
      [b[0]] + rest
  }

  /** A step keeps each category in one bucket and every bucket well counted. */
  lemma {:induction false} BumpKeepsShape(b: seq<Bucket>, cat: string, hit: bool)
    requires Distinct(b) && WellCounted(b)
    ensures Distinct(Bump(b, cat, hit)) && WellCounted(Bump(b, cat, hit))
  {
    if b != [] && b[0].category != cat {
      BumpKeepsShape(b[1..], cat, hit);
      var rest := Bump(b[1..], cat, hit);
      var r := Bump(b, cat, hit);
      assert r == [b[0]] + rest;
      assert b[0].category !in Keys(b[1..]) by {
        forall i | 0 <= i < |b[1..]| ensures b[1..][i].category != b[0].category {
          assert b[1..][i] == b[i + 1];
        }
      }
      assert b[0].category !in Keys(rest);
      forall i | 0 < i < |r| ensures r[i].category != b[0].category {
        assert r[i] == rest[i - 1];
      }
    }
  }

  /** A step adds one to its category's total, one to its completed count on a hit, and one to the sum. */
  lemma {:induction false} BumpCounts(b: seq<Bucket>, cat: string, hit: bool)
    ensures forall c :: TotalFor(Bump(b, cat, hit), c) == TotalFor(b, c) + (if c == cat then 1 else 0)
    ensures forall c :: DoneFor(Bump(b, cat, hit), c) == DoneFor(b, c) + (if c == cat && hit then 1 else 0)
    ensures SumTotals(Bump(b, cat, hit)) == SumTotals(b) + 1
  {
    var r := Bump(b, cat, hit);
    if b == [] {
      assert r[1..] == [];
    } else if b[0].category == cat {
      assert r[1..] == b[1..];
    } else {
      BumpCounts(b[1..], cat, hit);
      assert r[1..] == Bump(b[1..], cat, hit);
    }
  }

  /** The keys of a bucket list are its head's category and its tail's keys. */
  lemma KeysCons(h: Bucket, t: seq<Bucket>)
    ensures Keys([h] + t) == {h.category} + Keys(t)
  {
    var r := [h] + t;
    forall x | x in Keys(r) ensures x in {h.category} + Keys(t) {
      var i :| 0 <= i < |r| && r[i].category == x;
      if i > 0 { assert t[i - 1].category == x; }
    }
    forall x | x in Keys(t) ensures x in Keys(r) {
      var i :| 0 <= i < |t| && t[i].category == x;
      assert r[i + 1].category == x;
    }
    assert r[0].category == h.category;
  }

  /** Buckets for `cs`, filled in order as the handler's `forEach` fills its map. */
  function Tabulate(cs: seq<Challenge>, done: set<string>): (r: seq<Bucket>)
    ensures Distinct(r) && WellCounted(r)
    ensures Keys(r) == CategoriesOf(cs)
    decreases |cs|
  {
    if cs == [] then []
    else
      var init := cs[..|cs| - 1];
      var last := cs[|cs| - 1];
      CategoriesSnoc(init, last);
      assert cs == init + [last];
      var before := Tabulate(init, done);
      BumpKeepsShape(before, CategoryOf(last), last.id in done);
      Bump(before, CategoryOf(last), last.id in done)
  }

  /** Appending a challenge adds its category to the categories met so far. */
  lemma CategoriesSnoc(init: seq<Challenge>, last: Challenge)
    ensures CategoriesOf(init + [last]) == CategoriesOf(init) + {CategoryOf(last)}
  {
    var cs := init + [last];
    forall x | x in CategoriesOf(cs) ensures x in CategoriesOf(init) + {CategoryOf(last)} {
      var c :| c in cs && CategoryOf(c) == x;
      if c != last {
        assert c in init;
      }
    }
    assert last in cs;
  }

  /**
   * The buckets count the challenges: for every category, its bucket's total is
   * the number of challenges in it, its completed count the number of those whose
   * id is among `done` (both 0 for a category without a bucket), and the totals add
   * up to the number of challenges.
   */
  lemma {:induction false} TabulateCounts(cs: seq<Challenge>, done: set<string>)
    ensures forall c :: TotalFor(Tabulate(cs, done), c) == CountIn(cs, c)
    ensures forall c :: DoneFor(Tabulate(cs, done), c) == DoneIn(cs, c, done)
    ensures SumTotals(Tabulate(cs, done)) == |cs|
    decreases |cs|
  {
    if cs != [] {
      var init := cs[..|cs| - 1];
      var last := cs[|cs| - 1];
      TabulateCounts(init, done);
      BumpCounts(Tabulate(init, done), CategoryOf(last), last.id in done);
    }
  }

  /** The buckets' categories in bucket order (a `Map` iterates in insertion order). */
  function Order(b: seq<Bucket>): seq<string> {
    seq(|b|, i requires 0 <= i < |b| => b[i].category)
  }

  /** A step leaves the bucket order alone for a known category and appends a new one. */
  lemma {:induction false} OrderBump(b: seq<Bucket>, cat: string, hit: bool)
    ensures Order(Bump(b, cat, hit)) == if cat in Keys(b) then Order(b) else Order(b) + [cat]
  {
    var r := Bump(b, cat, hit);
    if cat in Keys(b) {
      assert |r| == |b|;
      forall i | 0 <= i < |r| ensures Order(r)[i] == Order(b)[i] {
      }
    } else {
      assert r == b + [Bucket(cat, 1, if hit then 1 else 0)];
      forall i | 0 <= i < |r| ensures Order(r)[i] == (Order(b) + [cat])[i] {
      }
    }
  }

  /** The buckets come in the order their categories are first met among the challenges. */
  lemma {:induction false} TabulateOrder(cs: seq<Challenge>, done: set<string>)
    ensures Order(Tabulate(cs, done)) == FirstSeen(cs)
    decreases |cs|
  {
    if cs != [] {
      var init := cs[..|cs| - 1];
      var last := cs[|cs| - 1];
      TabulateOrder(init, done);
      OrderBump(Tabulate(init, done), CategoryOf(last), last.id in done);
      assert CategoryOf(last) in Keys(Tabulate(init, done)) <==> CategoryOf(last) in FirstSeen(init);
    }
  }

  /** In buckets without repeated categories, the lookup by a bucket's category finds that bucket. */
  lemma {:induction false} LookupFindsBucket(b: seq<Bucket>, i: nat)
    requires Distinct(b) && i < |b|
    ensures TotalFor(b, b[i].category) == b[i].total
    ensures DoneFor(b, b[i].category) == b[i].completed
  {
    if i > 0 {
      assert b[0].category != b[i].category;
      assert b[1..][i - 1] == b[i];
      LookupFindsBucket(b[1..], i - 1);
    }
  }

  /**
   * `p` is the integer nearest to 100 * completed / total, a half rounded up:
   * p <= 100 * completed / total + 1/2 < p + 1, cleared of fractions.
   */
  predicate RoundedPercent(p: nat, completed: nat, total: nat) {
    2 * total * p <= 200 * completed + total < 2 * total * (p + 1)
  }

  /**
   * `Math.round((completed / total) * 100)` with exact rationals: the integer
   * nearest to 100 * completed / total, halves rounded up; 0 when there is no
   * challenge at all.
   */
  function RoundPercent(completed: nat, total: nat): (r: nat)
    ensures total == 0 ==> r == 0
    ensures total > 0 ==> RoundedPercent(r, completed, total)
    ensures completed <= total ==> r <= 100
  {
    if total == 0 then 0
    else
      var r := (200 * completed + total) / (2 * total);
      RoundingBounds(200 * completed + total, 2 * total, completed, total);
      r
  }

  /** The floor-division facts behind `RoundPercent`. */
  lemma RoundingBounds(a: nat, d: nat, completed: nat, total: nat)
    requires d == 2 * total && total > 0 && a == 200 * completed + total
    ensures d * (a / d) <= a < d * (a / d + 1)
    ensures completed <= total ==> a / d <= 100
  {
    var q := a / d;
    var m := a % d;
    assert a == d * q + m && 0 <= m < d;
    assert d * (q + 1) == d * q + d;
    if completed <= total {
      assert 200 * completed <= 200 * total;
      assert a < d * 101;
      if q > 100 {
        MulMonotone(d, 101, q);
        assert false;
      }
    }
  }

  /** Multiplying by a natural number preserves order. */
  lemma {:induction false} MulMonotone(d: nat, x: nat, y: nat)
    requires x <= y
    ensures d * x <= d * y
  {
    if d > 0 {
      MulMonotone(d - 1, x, y);
      assert d * x == (d - 1) * x + x;
      assert d * y == (d - 1) * y + y;
    }
  }

  /** One element of the reply. */
  datatype SkillEntry = SkillEntry(category: string, total: nat, completed: nat, percentage: nat)

  /** The sum of the entries' totals. */
  function SumEntries(e: seq<SkillEntry>): nat {
    if e == [] then 0 else e[0].total + SumEntries(e[1..])
  }

  /** The completed challenge ids: `new Set(completions.map(c => c.challengeId))`. */
  function CompletedIds(completions: seq<Completion>): set<string> {
    set c | c in completions :: c.challengeId
  }

  /** Turns the buckets into the reply's entries, in the same order. */
  function Entries(b: seq<Bucket>): (e: seq<SkillEntry>)
    ensures |e| == |b|
    ensures forall i :: 0 <= i < |b| ==>
      e[i] == SkillEntry(b[i].category, b[i].total, b[i].completed, RoundPercent(b[i].completed, b[i].total))
    ensures SumEntries(e) == SumTotals(b)
  {
    if b == [] then []
    else [SkillEntry(b[0].category, b[0].total, b[0].completed, RoundPercent(b[0].completed, b[0].total))] + Entries(b[1..])
  }

  /** `e` lists the categories of the challenges once each, in the order each is first met. */
  predicate InFirstSeenOrder(e: seq<SkillEntry>, challenges: seq<Challenge>) {
    && |e| == |FirstSeen(challenges)|
    && (forall i :: 0 <= i < |e| ==> e[i].category == FirstSeen(challenges)[i])
    && (forall i, j :: 0 <= i < j < |e| ==> e[i].category != e[j].category)
    && (set i | 0 <= i < |e| :: e[i].category) == CategoriesOf(challenges)
  }

  /**
   * Each entry's total is the number of challenges in its category and its
   * completed count the number of those whose id is in `done`; the percentage is
   * the completion ratio rounded half up, within 0..100; the totals add up to the
   * number of challenges.
   */
  predicate CountsChallenges(e: seq<SkillEntry>, challenges: seq<Challenge>, done: set<string>) {
    && (forall i :: 0 <= i < |e| ==>
          && e[i].total == CountIn(challenges, e[i].category)
          && e[i].completed == DoneIn(challenges, e[i].category, done)
          && e[i].completed <= e[i].total
          && 0 <= e[i].percentage <= 100
          && RoundedPercent(e[i].percentage, e[i].completed, e[i].total))
    && SumEntries(e) == |challenges|
  }

  /** The reply's entries name the categories in the order each is first met. */
  lemma {:induction false} EntriesInFirstSeenOrder(challenges: seq<Challenge>, done: set<string>)
    ensures InFirstSeenOrder(Entries(Tabulate(challenges, done)), challenges)
  {
    var b := Tabulate(challenges, done);
    var e := Entries(b);
    TabulateOrder(challenges, done);
    var order := Order(b);
    assert |order| == |b|;
    forall i | 0 <= i < |e| ensures e[i].category == FirstSeen(challenges)[i] {
      assert e[i].category == b[i].category == order[i];
    }
    forall i, j | 0 <= i < j < |e| ensures e[i].category != e[j].category {
      assert e[i].category == b[i].category && e[j].category == b[j].category;
    }
    EntryCategories(b);
  }

  /** The entries' categories are the buckets' keys. */
  lemma EntryCategories(b: seq<Bucket>)
    ensures (set i | 0 <= i < |Entries(b)| :: Entries(b)[i].category) == Keys(b)
  {
    var e := Entries(b);
    assert forall i :: 0 <= i < |b| ==> e[i].category == b[i].category;
  }

  /** The rounding facts for a bucket, which holds at least one challenge. */
  lemma PercentOfBucket(completed: nat, total: nat)
    requires 1 <= total && completed <= total
    ensures 0 <= RoundPercent(completed, total) <= 100
    ensures RoundedPercent(RoundPercent(completed, total), completed, total)
  {
  }

  /** One entry counts the challenges of its category. */
  lemma EntryCounts(challenges: seq<Challenge>, done: set<string>, i: nat)
    requires i < |Tabulate(challenges, done)|
    ensures
      var e := Entries(Tabulate(challenges, done))[i];
      && e.total == CountIn(challenges, e.category)
      && e.completed == DoneIn(challenges, e.category, done)
      && e.completed <= e.total
      && 0 <= e.percentage <= 100
      && RoundedPercent(e.percentage, e.completed, e.total)
  {
    var b := Tabulate(challenges, done);
    TabulateCounts(challenges, done);
    LookupFindsBucket(b, i);
    var c, t := b[i].completed, b[i].total;
    PercentOfBucket(c, t);
    assert Entries(b)[i] == SkillEntry(b[i].category, t, c, RoundPercent(c, t));
  }

  /** The reply's entries count the challenges of their categories. */
  lemma {:induction false} EntriesCountChallenges(challenges: seq<Challenge>, done: set<string>)
    ensures CountsChallenges(Entries(Tabulate(challenges, done)), challenges, done)
  {
    var b := Tabulate(challenges, done);
    TabulateCounts(challenges, done);
    forall i | 0 <= i < |b| {
      EntryCounts(challenges, done, i);
    }
  }

  /**
   * The skills-progress handler after `requireAuth`. `challenges` and `completions`
   * are the storage results for the caller's school. A caller without a school gets
   * 403; one with a school gets 200 and one entry per category of the challenges
   * (a missing or empty category counting as `General`), in the order each is
   * first met, counting as completed the challenges whose id appears among the
   * caller's completions.
   */
  function SkillsProgress(caller: User, challenges: seq<Challenge>, completions: seq<Completion>): (r: Reply<seq<SkillEntry>>)
    ensures !HasSchool(caller) <==> r == Fail(403, NoSchool)
    ensures r.Ok? <==> HasSchool(caller)
    ensures r.Ok? ==>
      && r.status == 200
      && InFirstSeenOrder(r.payload, challenges)
      && CountsChallenges(r.payload, challenges, CompletedIds(completions))
  {
    if !HasSchool(caller) then Fail(403, NoSchool)
    else
      var done := CompletedIds(completions);
      EntriesInFirstSeenOrder(challenges, done);
      EntriesCountChallenges(challenges, done);
      Ok(200, Entries(Tabulate(challenges, done)))
  }

  /**
   * The skills-progress route (`app.get('/api/student/skills-progress', requireAuth, ...)`):
   * `caller` is the user `requireAuth` attached. When the guard calls `next()` the
   * handler's reply stands; otherwise the guard's own reply does.
   */
  function SkillsProgressRoute(guards: seq<Verdict>, caller: User, challenges: seq<Challenge>, completions: seq<Completion>): (r: Reply<seq<SkillEntry>>)
    ensures (forall j :: 0 <= j < |guards| ==> guards[j] == Next) ==> r == SkillsProgress(caller, challenges, completions)
    ensures (exists j :: 0 <= j < |guards| && guards[j].Halt?) ==> AnsweredByFirstHalt(guards, r)
  {
    Answer(guards, SkillsProgress(caller, challenges, completions))
  }
}

=== FILE: students.dfy ===
/**
 * The student-scoped school-admin endpoints under `/api/schools/:schoolId/students/:studentId`:
 * update, reset-password and details. Each runs behind `requireAuth`,
 * `requireAdminOrSuperAdmin` and `requireSchoolContext`, then checks that the
 * addressed user belongs to the school named in the path.
 */
module Students {
  import opened Wrappers
  import opened Json
  import opened Seqs
  import opened Records
  import opened Http

  /** The answer to a user outside the path's school (or not found at all). */
  const NotInSchool := "Student not found in this school"

  // ---------------------------------------------------------------------------
  // Membership
  // ---------------------------------------------------------------------------

  /**
   * The membership test as the handlers write it (`!student || student.schoolId
   * !== schoolId` answers 404): the user exists and its `schoolId` is the path's.
   * It does not look at the role.
   */
  predicate MemberAsWritten(found: Option<User>, schoolId: string) {
    found.Some? && found.value.schoolId == Some(schoolId)
  }

  /** The membership test the routes evidently intend: a student of the path's school. */
  predicate StudentOfSchool(found: Option<User>, schoolId: string) {
    MemberAsWritten(found, schoolId) && found.value.role == Student
  }

  /**
   * Which membership test a student-scoped handler applies: `SchoolOnly` is the
   * handlers as written, `StudentsOnly` adds the role check the routes intend.
   */
  datatype Membership = SchoolOnly | StudentsOnly

  /** Whether the addressed user passes the membership test `m`. */
  predicate PassesMembership(m: Membership, found: Option<User>, schoolId: string) {
    match m
    case SchoolOnly => MemberAsWritten(found, schoolId)
    case StudentsOnly => StudentOfSchool(found, schoolId)
  }

  /** An admin of the school passes the written test although the route addresses students. */
  lemma AdminPassesMembershipAsWritten()
    ensures
      var admin := User("a2", "teacher", "t@school", "h", Admin, Some("S1"), true, None, None, None, None, None, 0);
      MemberAsWritten(Some(admin), "S1") && !StudentOfSchool(Some(admin), "S1")
  {
  }

  // ---------------------------------------------------------------------------
  // Update: PATCH /api/schools/:schoolId/students/:studentId
  // ---------------------------------------------------------------------------

  /** One column of an update body: left out of the body, or set to a value. */
  datatype Change<+T> = Keep | SetTo(value: T) {
    /** The column's value after the update. */
    function Over(current: T): T {
      match this
      case Keep => current
      case SetTo(v) => v
    }
  }

  /** The user columns a request body may name; a column it does not name is `Keep`. */
  datatype UserPatch = UserPatch(
    id: Change<string>,
    username: Change<string>,
    email: Change<string>,
    passwordHash: Change<string>,
    role: Change<Role>,
    schoolId: Change<Option<string>>,
    isActive: Change<bool>,
    firstName: Change<Option<string>>,
    lastName: Change<Option<string>>,
    points: Change<Option<int>>,
    streak: Change<Option<int>>,
    selectedAvatar: Change<Option<string>>,
    createdAt: Change<int>)

  /**
   * The four `delete updates.x` lines: the body no longer names id, password hash,
   * school or role, and names every other column exactly as before.
   */
  function Sanitize(p: UserPatch): (q: UserPatch)
    ensures q.id == Keep && q.passwordHash == Keep && q.schoolId == Keep && q.role == Keep
    ensures q.(id := p.id, passwordHash := p.passwordHash, schoolId := p.schoolId, role := p.role) == p
  {
    p.(id := Keep, passwordHash := Keep, schoolId := Keep, role := Keep)
  }

  /** `storage.updateUser`'s effect on one row: every column the body names takes its value. */
  function ApplyPatch(u: User, p: UserPatch): User {
    User(p.id.Over(u.id), p.username.Over(u.username), p.email.Over(u.email),
         p.passwordHash.Over(u.passwordHash), p.role.Over(u.role), p.schoolId.Over(u.schoolId),
         p.isActive.Over(u.isActive), p.firstName.Over(u.firstName), p.lastName.Over(u.lastName),
         p.points.Over(u.points), p.streak.Over(u.streak), p.selectedAvatar.Over(u.selectedAvatar),
         p.createdAt.Over(u.createdAt))
  }

  /**
   * `after` is `before` updated by a student-update body: the privileged columns
   * are untouched, and every other column holds the body's value if it supplied
   * one and the old value otherwise.
   */
  predicate UpdatedByBody(before: User, after: User, p: UserPatch) {
    && after.id == before.id
    && after.passwordHash == before.passwordHash
    && after.schoolId == before.schoolId
    && after.role == before.role
    && after.username == (if p.username.SetTo? then p.username.value else before.username)
    && after.email == (if p.email.SetTo? then p.email.value else before.email)
    && after.isActive == (if p.isActive.SetTo? then p.isActive.value else before.isActive)
    && after.firstName == (if p.firstName.SetTo? then p.firstName.value else before.firstName)
    && after.lastName == (if p.lastName.SetTo? then p.lastName.value else before.lastName)
    && after.points == (if p.points.SetTo? then p.points.value else before.points)
    && after.streak == (if p.streak.SetTo? then p.streak.value else before.streak)
    && after.selectedAvatar == (if p.selectedAvatar.SetTo? then p.selectedAvatar.value else before.selectedAvatar)
    && after.createdAt == (if p.createdAt.SetTo? then p.createdAt.value else before.createdAt)
  }

  /** A sanitized body applied to a row never touches the privileged columns and passes the rest through. */
  lemma SanitizedPatchKeepsPrivileges(u: User, p: UserPatch)
    ensures UpdatedByBody(u, ApplyPatch(u, Sanitize(p)), p)
  {
  }

  /** Sanitizing is idempotent: the second pass finds nothing left to strip. */
  lemma SanitizeIdempotent(p: UserPatch)
    ensures Sanitize(Sanitize(p)) == Sanitize(p)
  {
  }

  /** `UPDATE users SET ... WHERE id = studentId` on the users table. */
  function UpdateRows(users: seq<User>, studentId: string, p: UserPatch): (r: seq<User>)
    ensures |r| == |users|
    ensures forall i :: 0 <= i < |users| && users[i].id != studentId ==> r[i] == users[i]
    ensures forall i :: 0 <= i < |users| && users[i].id == studentId ==> r[i] == ApplyPatch(users[i], p)
  {
    seq(|users|, i requires 0 <= i < |users| => if users[i].id == studentId then ApplyPatch(users[i], p) else users[i])
  }

  /** An update that leaves ids alone keeps the primary key, and the updated row is what a lookup then finds. */
  lemma UpdatedRowIsFound(users: seq<User>, studentId: string, p: UserPatch, u: User)
    requires UniqueIds(users) && p.id == Keep
    requires u in users && u.id == studentId
    ensures UniqueIds(UpdateRows(users, studentId, p))
    ensures UserById(UpdateRows(users, studentId, p), studentId) == Some(ApplyPatch(u, p))
  {
    var r := UpdateRows(users, studentId, p);
    forall i | 0 <= i < |users| ensures r[i].id == users[i].id {
    }
    var k :| 0 <= k < |users| && users[k] == u;
    IdLookupFindsTheRow(r, r[k]);
  }

  /**
   * The update handler after its guards, under membership test `m`. When the
   * addressed user fails the test the reply is 404 and nothing changes. Otherwise
   * exactly the addressed row is updated by the sanitized body and returned: its
   * id, password hash, school and role are kept, every other supplied column is
   * applied, every other row, ticket and session is as before, and (ids being
   * unique) the returned row is what the table now holds for that id.
   */
  function UpdateStudent(m: Membership, store: Store, schoolId: string, studentId: string, body: UserPatch): (out: (Reply<User>, Store))
    ensures out.0.Fail? <==> !PassesMembership(m, UserById(store.users, studentId), schoolId)
    ensures out.0.Fail? ==> out == (Fail(404, NotInSchool), store)
    ensures out.0.Ok? ==>
      && out.0.status == 200
      && out.1.tickets == store.tickets && out.1.sessions == store.sessions
      && |out.1.users| == |store.users|
      && UpdatedByBody(UserById(store.users, studentId).value, out.0.payload, body)
      && (forall i :: 0 <= i < |store.users| ==>
           if store.users[i].id == studentId then UpdatedByBody(store.users[i], out.1.users[i], body)
           else out.1.users[i] == store.users[i])
      && (UniqueIds(store.users) ==> UniqueIds(out.1.users) && UserById(out.1.users, studentId) == Some(out.0.payload))
  {
    var found := UserById(store.users, studentId);
    if !PassesMembership(m, found, schoolId) then (Fail(404, NotInSchool), store)
    else
      var p := Sanitize(body);
      forall u ensures UpdatedByBody(u, ApplyPatch(u, p), body) {
        SanitizedPatchKeepsPrivileges(u, body);
      }
      assert UniqueIds(store.users) ==>
          UniqueIds(UpdateRows(store.users, studentId, p))
          && UserById(UpdateRows(store.users, studentId, p), studentId) == Some(ApplyPatch(found.value, p)) by {
        if UniqueIds(store.users) {
          UpdatedRowIsFound(store.users, studentId, p, found.value);
        }
      }
      (Ok(200, ApplyPatch(found.value, p)), store.(users := UpdateRows(store.users, studentId, p)))
  }

  /**
   * As written, an admin of the path's school is updated like a student; with the
   * intended test the same request is answered 404 and changes nothing.
   */
  lemma AdminUpdatedAsWritten(store: Store, schoolId: string, studentId: string, body: UserPatch)
    requires UserById(store.users, studentId).Some?
    requires UserById(store.users, studentId).value.role == Admin
    requires UserById(store.users, studentId).value.schoolId == Some(schoolId)
    ensures UpdateStudent(SchoolOnly, store, schoolId, studentId, body).0.Ok?
    ensures UpdateStudent(StudentsOnly, store, schoolId, studentId, body) == (Fail(404, NotInSchool), store)
  {
  }

  /**
   * The update route (`app.patch(..., requireAuth, requireAdminOrSuperAdmin, requireSchoolContext, ...)`):
   * when every guard calls `next()` the handler runs and its outcome stands.
   */
  function UpdateStudentRoute(m: Membership, guards: seq<Verdict>, store: Store, schoolId: string, studentId: string, body: UserPatch): (out: (Reply<User>, Store))
    ensures (forall j :: 0 <= j < |guards| ==> guards[j] == Next) ==> out == UpdateStudent(m, store, schoolId, studentId, body)
    ensures (exists j :: 0 <= j < |guards| && guards[j].Halt?) ==> AnsweredByFirstHalt(guards, out.0) && out.1 == store
    ensures out.1 != store ==>
      && (forall j :: 0 <= j < |guards| ==> guards[j] == Next)
      && PassesMembership(m, UserById(store.users, studentId), schoolId)
  {
    Route(guards, store, UpdateStudent(m, store, schoolId, studentId, body))
  }

  // ---------------------------------------------------------------------------
  // Reset password: POST /api/schools/:schoolId/students/:studentId/reset-password
  // ---------------------------------------------------------------------------

  /** The reply when the body has no usable `newPassword`. */
  const PasswordRequired := "New password is required"

  /**
   * The reset handler as written. After the required-field and membership checks it
   * calls `bcrypt.hash`, but `bcrypt` is never imported: the call throws, the
   * handler's catch answers 500 and no hash is stored. Membership is the written
   * test (no role check).
   */
  function ResetPasswordAsWritten(store: Store, schoolId: string, studentId: string, newPassword: Option<string>): (out: (Reply<string>, Store))
    ensures out.1 == store
    ensures !Filled(newPassword) ==> out.0 == Fail(400, PasswordRequired)
    ensures Filled(newPassword) && !MemberAsWritten(UserById(store.users, studentId), schoolId) ==> out.0 == Fail(404, NotInSchool)
    ensures Filled(newPassword) && MemberAsWritten(UserById(store.users, studentId), schoolId) ==> out.0 == Fail(500, "Failed to reset password")
  {
    if !Filled(newPassword) then (Fail(400, PasswordRequired), store)
    else if !MemberAsWritten(UserById(store.users, studentId), schoolId) then (Fail(404, NotInSchool), store)
    else (Fail(500, "Failed to reset password"), store)
  }

  /** A well-formed reset of an existing student's password never stores the new hash. */
  lemma ResetAsWrittenNeverResets()
    ensures
      var alice := User("u1", "alice", "a@school", "old-hash", Student, Some("S1"), true, None, None, None, None, None, 0);
      var store := Store([alice], [], []);
      var out := ResetPasswordAsWritten(store, "S1", "u1", Some("newpass"));
      out.0 == Fail(500, "Failed to reset password") && out.1.users[0].passwordHash == "old-hash"
  {
  }

  /**
   * The reset handler as evidently intended, under membership test `m`: the new
   * password is hashed with the authentication module's `hashPassword` (a parameter
   * here) and stored in the addressed user's row. Nothing else changes; in
   * particular the sessions are left alone, since the handler never revokes them.
   */
  function ResetPassword(m: Membership, store: Store, schoolId: string, studentId: string, newPassword: Option<string>,
                         hash: string -> string): (out: (Reply<string>, Store))
    ensures !Filled(newPassword) ==> out == (Fail(400, PasswordRequired), store)
    ensures Filled(newPassword) && !PassesMembership(m, UserById(store.users, studentId), schoolId) ==> out == (Fail(404, NotInSchool), store)
    ensures out.0.Ok? <==> Filled(newPassword) && PassesMembership(m, UserById(store.users, studentId), schoolId)
    ensures out.0.Ok? ==>
      && out.0 == Ok(200, "Password reset successfully")
      && out.1.tickets == store.tickets && out.1.sessions == store.sessions
      && |out.1.users| == |store.users|
      && forall i :: 0 <= i < |store.users| ==>
           if store.users[i].id == studentId then out.1.users[i] == store.users[i].(passwordHash := hash(newPassword.value))
           else out.1.users[i] == store.users[i]
  {
    if !Filled(newPassword) then (Fail(400, PasswordRequired), store)
    else if !PassesMembership(m, UserById(store.users, studentId), schoolId) then (Fail(404, NotInSchool), store)
    else
      var p := UserPatch(Keep, Keep, Keep, SetTo(hash(newPassword.value)), Keep, Keep, Keep, Keep, Keep, Keep, Keep, Keep, Keep);
      (Ok(200, "Password reset successfully"), store.(users := UpdateRows(store.users, studentId, p)))
  }

  /**
   * The reset route: when every guard calls `next()` the handler runs and its
   * outcome stands; the store changes only when every guard passed and the
   * membership test admitted the user.
   */
  function ResetPasswordRoute(m: Membership, guards: seq<Verdict>, store: Store, schoolId: string, studentId: string,
                              newPassword: Option<string>, hash: string -> string): (out: (Reply<string>, Store))
    ensures (forall j :: 0 <= j < |guards| ==> guards[j] == Next) ==>
      out == ResetPassword(m, store, schoolId, studentId, newPassword, hash)
    ensures (exists j :: 0 <= j < |guards| && guards[j].Halt?) ==> AnsweredByFirstHalt(guards, out.0) && out.1 == store
    ensures out.1 != store ==>
      && (forall j :: 0 <= j < |guards| ==> guards[j] == Next)
      && Filled(newPassword) && PassesMembership(m, UserById(store.users, studentId), schoolId)
  {
    Route(guards, store, ResetPassword(m, store, schoolId, studentId, newPassword, hash))
  }

  // ---------------------------------------------------------------------------
  // Details: GET /api/schools/:schoolId/students/:studentId/details
  // ---------------------------------------------------------------------------

  /** The student fields the details reply exposes (no password hash, no active flag). */
  datatype StudentView = StudentView(
    id: string, username: string, email: string, firstName: Option<string>, lastName: Option<string>,
    points: Option<int>, streak: Option<int>, role: Role, selectedAvatar: Option<string>, createdAt: int)

  /** Tallies of one group of tickets by status. */
  datatype Tally = Tally(total: nat, completed: nat, inProgress: nat, pending: nat, tickets: seq<Ticket>)

  /** The details body. */
  datatype Details = Details(
    student: StudentView,
    deviceChecks: Tally,
    repairs: Tally,
    learningModules: nat,
    completions: seq<Completion>,
    workLogCount: nat,
    workLogs: seq<WorkLog>)

  /** `t.field === value` for a string value. */
  predicate FieldIs(t: Ticket, field: string, value: string) {
    Get(t.fields, field) == Some(JStr(value))
  }

  /** The test `t => t.field === value`. */
  function Where(field: string, value: string): Ticket -> bool {
    (t: Ticket) => FieldIs(t, field, value)
  }

  /** The count of tickets with a status is the number of positions holding one. */
  lemma StatusCount(group: seq<Ticket>, status: string)
    ensures Count(group, Where("status", status)) == |set i | 0 <= i < |group| && FieldIs(group[i], "status", status)|
  {
    CountIsPositions(group, Where("status", status));
    assert Positions(group, Where("status", status)) == set i | 0 <= i < |group| && FieldIs(group[i], "status", status);
  }

  /**
   * The school's tickets assigned to the student with a given issue type, as the
   * handler computes them (assigned first, then by type): the same as the single
   * combined filter, and holding every such ticket as often as the school list does.
   */
  lemma KindGroup(schoolTickets: seq<Ticket>, studentId: string, kind: string)
    ensures
      var g := Filter(Filter(schoolTickets, Where("assignedTo", studentId)), Where("issueType", kind));
      && g == Filter(schoolTickets, And(Where("assignedTo", studentId), Where("issueType", kind)))
      && forall t :: multiset(g)[t] ==
           if FieldIs(t, "assignedTo", studentId) && FieldIs(t, "issueType", kind) then multiset(schoolTickets)[t] else 0
  {
    var mine := Filter(schoolTickets, Where("assignedTo", studentId));
    FilterAnd(schoolTickets, Where("assignedTo", studentId), Where("issueType", kind));
    var g := Filter(mine, Where("issueType", kind));
    forall t ensures multiset(g)[t] ==
        if FieldIs(t, "assignedTo", studentId) && FieldIs(t, "issueType", kind) then multiset(schoolTickets)[t] else 0 {
      assert multiset(g)[t] == if Where("issueType", kind)(t) then multiset(mine)[t] else 0;
      assert multiset(mine)[t] == if Where("assignedTo", studentId)(t) then multiset(schoolTickets)[t] else 0;
    }
  }

  /** Check and repair groups of one student are disjoint and together fit in the student's tickets. */
  lemma KindGroupsSplit(mine: seq<Ticket>)
    ensures
      var checks := Filter(mine, Where("issueType", "check"));
      var repairs := Filter(mine, Where("issueType", "repair"));
      && (forall t :: !(t in checks && t in repairs))
      && |checks| + |repairs| <= |mine|
  {
    ExclusiveCountsBounded(mine, Where("issueType", "check"), Where("issueType", "repair"), (t: Ticket) => false);
  }

  /**
   * Tallies a group by the three statuses the dashboard shows: each count is the
   * number of positions in the group holding a ticket with that status, and the
   * three together never exceed the total.
   */
  function TallyOf(group: seq<Ticket>): (r: Tally)
    ensures r.total == |group| && r.tickets == group
    ensures r.completed == |set i | 0 <= i < |group| && FieldIs(group[i], "status", "completed")|
    ensures r.inProgress == |set i | 0 <= i < |group| && FieldIs(group[i], "status", "in_progress")|
    ensures r.pending == |set i | 0 <= i < |group| && FieldIs(group[i], "status", "pending")|
    ensures r.completed + r.inProgress + r.pending <= r.total
  {
    var completed := Where("status", "completed");
    var inProgress := Where("status", "in_progress");
    var pending := Where("status", "pending");
    ExclusiveCountsBounded(group, completed, inProgress, pending);
    StatusCount(group, "completed");
    StatusCount(group, "in_progress");
    StatusCount(group, "pending");
    Tally(|group|, Count(group, completed), Count(group, inProgress), Count(group, pending), group)
  }

  /**
   * The details handler after its guards, under membership test `m`.
   * `schoolTickets`, `completions` and `workLogs` are what the storage calls
   * return for the school and student. A user who fails the test gets 404.
   * Otherwise device checks and repairs are the school's tickets assigned to the
   * student with issue type `check` and `repair`, each in the school list's order
   * with every such occurrence kept, and each tallied by `TallyOf` (its size and
   * its numbers of completed, in-progress and pending tickets); the two groups
   * are disjoint and together no larger than the student's assigned tickets. The
   * student view copies the stored row's public columns.
   */
  function StudentDetails(m: Membership, users: seq<User>, schoolId: string, studentId: string, schoolTickets: seq<Ticket>,
                          completions: seq<Completion>, workLogs: seq<WorkLog>): (r: Reply<Details>)
    ensures r.Fail? <==> !PassesMembership(m, UserById(users, studentId), schoolId)
    ensures r.Fail? ==> r == Fail(404, NotInSchool)
    ensures r.Ok? ==>
      var d := r.payload;
      var s := UserById(users, studentId).value;
      && r.status == 200
      && d.student == StudentView(s.id, s.username, s.email, s.firstName, s.lastName, s.points, s.streak,
                                  s.role, s.selectedAvatar, s.createdAt)
      && d.deviceChecks == TallyOf(d.deviceChecks.tickets)
      && d.repairs == TallyOf(d.repairs.tickets)
      && d.deviceChecks.tickets == Filter(schoolTickets, And(Where("assignedTo", studentId), Where("issueType", "check")))
      && d.repairs.tickets == Filter(schoolTickets, And(Where("assignedTo", studentId), Where("issueType", "repair")))
      && (forall t :: !(t in d.deviceChecks.tickets && t in d.repairs.tickets))
      && d.deviceChecks.total + d.repairs.total <= Count(schoolTickets, Where("assignedTo", studentId))
      && d.deviceChecks.completed + d.deviceChecks.inProgress + d.deviceChecks.pending <= d.deviceChecks.total
      && d.repairs.completed + d.repairs.inProgress + d.repairs.pending <= d.repairs.total
      && d.learningModules == |completions| && d.completions == completions
      && d.workLogCount == |workLogs| && d.workLogs == workLogs
  {
    var found := UserById(users, studentId);
    if !PassesMembership(m, found, schoolId) then Fail(404, NotInSchool)
    else
      var s := found.value;
      var mine := Filter(schoolTickets, Where("assignedTo", studentId));
      var checks := Filter(mine, Where("issueType", "check"));
      var repairs := Filter(mine, Where("issueType", "repair"));
      KindGroup(schoolTickets, studentId, "check");
      KindGroup(schoolTickets, studentId, "repair");
      KindGroupsSplit(mine);
      var view := StudentView(s.id, s.username, s.email, s.firstName, s.lastName, s.points, s.streak,
                              s.role, s.selectedAvatar, s.createdAt);
      Ok(200, Details(view, TallyOf(checks), TallyOf(repairs), |completions|, completions, |workLogs|, workLogs))
  }

  /** As written, an admin of the path's school gets a details page; with the intended test, 404. */
  lemma AdminDetailsAsWritten(users: seq<User>, schoolId: string, studentId: string, schoolTickets: seq<Ticket>,
                              completions: seq<Completion>, workLogs: seq<WorkLog>)
    requires UserById(users, studentId).Some?
    requires UserById(users, studentId).value.role == Admin
    requires UserById(users, studentId).value.schoolId == Some(schoolId)
    ensures StudentDetails(SchoolOnly, users, schoolId, studentId, schoolTickets, completions, workLogs).Ok?
    ensures StudentDetails(StudentsOnly, users, schoolId, studentId, schoolTickets, completions, workLogs) == Fail(404, NotInSchool)
  {
  }

  /** The details route: the guards' first halt answers; otherwise the handler's reply stands. */
  function StudentDetailsRoute(m: Membership, guards: seq<Verdict>, users: seq<User>, schoolId: string, studentId: string,
                               schoolTickets: seq<Ticket>, completions: seq<Completion>, workLogs: seq<WorkLog>): (r: Reply<Details>)
    ensures (forall j :: 0 <= j < |guards| ==> guards[j] == Next) ==>
      r == StudentDetails(m, users, schoolId, studentId, schoolTickets, completions, workLogs)
    ensures (exists j :: 0 <= j < |guards| && guards[j].Halt?) ==> AnsweredByFirstHalt(guards, r)
    ensures r.Ok? ==>
      && (forall j :: 0 <= j < |guards| ==> guards[j] == Next)
      && PassesMembership(m, UserById(users, studentId), schoolId)
      && r == StudentDetails(m, users, schoolId, studentId, schoolTickets, completions, workLogs)
  {
    Answer(guards, StudentDetails(m, users, schoolId, studentId, schoolTickets, completions, workLogs))
  }
}

=== FILE: tickets.dfy ===
/**
 * `POST /api/tickets`: the body is normalised before validation so that a new
 * ticket is always pending, always in the caller's school, and assigned to the
 * caller unless the body names someone.
 */
module Tickets {
  import opened Wrappers
  import opened Json
  import opened Records
  import opened Http

  /** The three keys the handler decides itself. */
  const Decided: set<string> := {"status", "schoolId", "assignedTo"}

  /**
   * `{ ...bodyWithoutStatus, schoolId, assignedTo: body.assignedTo || callerId, status: 'pending' }`.
   * Every key the body supplies other than the three decided ones is carried over
   * with its value; `status` is always `pending`; `schoolId` is always the caller's
   * school; `assignedTo` keeps a truthy supplied value and is the caller otherwise.
   */
  function Normalise(body: Object, school: string, callerId: string): (r: Object)
    ensures r.Keys == body.Keys + Decided
    ensures r["status"] == JStr("pending")
    ensures r["schoolId"] == JStr(school)
    ensures Truthy(Get(body, "assignedTo")) ==> r["assignedTo"] == body["assignedTo"]
    ensures !Truthy(Get(body, "assignedTo")) ==> r["assignedTo"] == JStr(callerId)
    ensures forall k :: k in body && k !in Decided ==> r[k] == body[k]
  {
    var assignee := if Truthy(Get(body, "assignedTo")) then body["assignedTo"] else JStr(callerId);
    (body - {"status"})["schoolId" := JStr(school)]["assignedTo" := assignee]["status" := JStr("pending")]
  }

  /** Whatever the body says about status or school, the normalised ticket is the same. */
  lemma StatusAndSchoolIgnored(body: Object, status: Json, school: Json, callerSchool: string, callerId: string)
    ensures Normalise(body["status" := status]["schoolId" := school], callerSchool, callerId) == Normalise(body, callerSchool, callerId)
  {
    var b := body["status" := status]["schoolId" := school];
    var l := Normalise(b, callerSchool, callerId);
    var r := Normalise(body, callerSchool, callerId);
    assert Get(b, "assignedTo") == Get(body, "assignedTo");
    assert l.Keys == r.Keys;
    forall k | k in l ensures l[k] == r[k] {
    }
  }

  /** Normalising twice for the same caller changes nothing more: the result is a fixed point. */
  lemma NormaliseIdempotent(body: Object, school: string, callerId: string)
    ensures Normalise(Normalise(body, school, callerId), school, callerId) == Normalise(body, school, callerId)
  {
    var once := Normalise(body, school, callerId);
    var twice := Normalise(once, school, callerId);
    assert twice["assignedTo"] == once["assignedTo"] by {
      assert Get(once, "assignedTo") == Some(once["assignedTo"]);
    }
    assert twice.Keys == once.Keys;
    forall k | k in twice ensures twice[k] == once[k] {
    }
  }

  /**
   * The create-ticket handler after `requireAuth`. `validate` stands for the insert
   * schema's parse: `Some(message)` when the normalised body is rejected. A caller
   * without a school gets 403, a rejected body 400, and in both cases no ticket is
   * stored. Otherwise exactly one ticket is appended, with the store-assigned id
   * `freshId`, and it is the one the 201 reply carries.
   */
  function CreateTicket(store: Store, caller: User, body: Object, validate: Object -> Option<string>, freshId: string): (out: (Reply<Ticket>, Store))
    ensures !HasSchool(caller) ==> out == (Fail(403, NoSchool), store)
    ensures out.0.Fail? ==> out.1 == store
    ensures HasSchool(caller) ==>
      var v := validate(Normalise(body, caller.schoolId.value, caller.id));
      && (out.0.Ok? <==> v.None?)
      && (v.Some? ==> out.0 == Fail(400, v.value))
    ensures out.0.Ok? ==>
      var t := out.0.payload;
      && out.0.status == 201
      && out.1 == store.(tickets := store.tickets + [t])
      && t.id == freshId
      && Get(t.fields, "status") == Some(JStr("pending"))
      && Get(t.fields, "schoolId") == Some(JStr(caller.schoolId.value))
      && Get(t.fields, "assignedTo") == (if Truthy(Get(body, "assignedTo")) then Get(body, "assignedTo") else Some(JStr(caller.id)))
      && forall k :: k in body && k !in Decided ==> Get(t.fields, k) == Some(body[k])
  {
    if !HasSchool(caller) then (Fail(403, NoSchool), store)
    else
      var data := Normalise(body, caller.schoolId.value, caller.id);
      match validate(data)
      case Some(message) => (Fail(400, message), store)
      case None =>
        var t := Ticket(freshId, data);
        (Ok(201, t), store.(tickets := store.tickets + [t]))
  }

  /**
   * The ticket-creation route (`app.post('/api/tickets', requireAuth, ...)`):
   * `caller` is the user `requireAuth` attached. When the guard calls `next()` the
   * handler runs and its outcome stands; otherwise the guard's own reply is sent
   * and no ticket is stored.
   */
  function CreateTicketRoute(guards: seq<Verdict>, store: Store, caller: User, body: Object,
                             validate: Object -> Option<string>, freshId: string): (out: (Reply<Ticket>, Store))
    ensures (forall j :: 0 <= j < |guards| ==> guards[j] == Next) ==> out == CreateTicket(store, caller, body, validate, freshId)
    ensures (exists j :: 0 <= j < |guards| && guards[j].Halt?) ==> AnsweredByFirstHalt(guards, out.0) && out.1 == store
  {
    Route(guards, store, CreateTicket(store, caller, body, validate, freshId))
  }
}

=== FILE: wrappers.dfy ===
/** Failure-compatible wrappers used by every handler of the model. */
module Wrappers {

  /** A value that may be missing: a nullable column or an absent request field. */
  datatype Option<+T> = None | Some(value: T) {

    /** The wrapped value, or `default` when there is none. */
    function GetOr(default: T): T {
      match this
      case Some(v) => v
      case None => default
    }
  }

  /** Either a parsed value or the validation message explaining why parsing failed. */
  datatype Result<+R, +E> = Success(value: R) | Failure(error: E)
}
